=== FILE: README.md ===
# tox4-conda in Dafny

A model of the tox 4 plugin `tox_conda`. The plugin replaces tox's virtualenv
runner with one that creates and drives conda environments. The model covers
these parts of the plugin:

- **The "conda" fingerprint.** `python_cache` builds it; tox compares it to
  decide whether an environment has to be rebuilt (module `CondaCache`).
- **The conda command lines.** These are `conda create`, `conda install`,
  `conda env create`, the `conda run … --live-stream` prefix and
  `conda env list --json`. The model also gives the argument lists that
  Python's `shlex.split` turns them into (modules `Commands`, `Shlex`, `Text`).
- **The python pin.** The `python=<version>` pin derived from `base_python`
  (module `PythonVersion`).
- **Finding conda.** `find_conda` locates the conda executable (module `Discovery`).
- **The runner's own steps.** These are `create_python_env` as a trace of
  side effects, the `_ensure_python_env_exists` state machine, and the
  executor's request rewriting (module `Runner`).
- **The cache key filter.** `FilteredInfo.compare` drops keys before tox
  compares cache entries (module `FilteredInfo`).
- **The activation wrappers.** These are the POSIX and Windows popen
  wrappers and the `activate_env` swap and restore (module `EnvActivator`).

Several things the plugin leaves to the outside world become parameters of
the model:

| outside input | how the model takes it |
|---|---|
| the file system | the `Host` record: the files `open` can read, by name |
| `Path.resolve` | a function parameter |
| SHA-1 | a function parameter |
| what `YAML().load` reads | the `Host` record's `documents`, a map from path to parsed document |
| the process environment | the `Machine` record |
| `shutil.which` | the `Machine` record |
| exit statuses of the programs run | the `World` record |
| the name of the temporary file | the `World` record when creating; one name per wrapper level for the POSIX activation script |

`shlex.split` is modelled in full (POSIX mode, no comments) as a lexer over
characters. This is what lets the model state the argument lists that conda
receives. For example, a single-quoted environment directory with a blank in
it stays one word (tests/test_conda.py builds such a project on purpose).
Every such statement requires the quoted words to hold no single quote and
the bare words to be non-empty and free of blanks, quotes and backslashes.

`Outcomes` holds the `Option`/`Result` types. Its `Error` datatype lists the
exceptions the plugin raises or lets escape:

- tox's `Fail`, with the plugin's exact messages;
- `KeyError`;
- `ValueError`, raised by `shlex.split`;
- `TypeError`;
- `AttributeError`;
- `OSError`.

## Model

| member | source | states |
|---|---|---|
| PythonVersion.MatchVersion | tox_conda/plugin.py:92 | the prefix-anchored pattern matches exactly the strings that start with `python` and a digit; the major group is that digit, a minor group is a non-empty run of digits, a micro group is one digit |
| PythonVersion.EnvVersionFull | tox_conda/plugin.py:92-99 | `python<d>.<minor>.<u>…` pins `<d>.<minor>.<u>` |
| PythonVersion.EnvVersionMinor | tox_conda/plugin.py:92-99 | `python<d>.<minor>` not followed by a digit or by `.` and a digit pins `<d>.<minor>` |
| PythonVersion.EnvVersionRunTogether | tox_conda/plugin.py:92-99 | `python<d><u>…` pins `<d>.<u>`: with no dot the greedy minor group is empty and the optional dot of the micro group takes the next digit |
| PythonVersion.Python310PinsThreeOne | tox_conda/plugin.py:92-99 | `python310` pins `3.1`, not `3.10` |
| PythonVersion.EnvVersionMajor | tox_conda/plugin.py:92-99 | `python<d>` followed by neither a digit nor `.` and a digit pins just `<d>` |
| PythonVersion.EnvVersionFallback | tox_conda/plugin.py:100-102 | a first `base_python` entry that does not start with `python<d>` falls back to the host's `version_dot` |
| CondaCache.HashFileAsWritten | tox_conda/plugin.py:483-487 | the digest is the SHA-1 of the content of the file named by the last path component of the path, relative to the working directory; when no such file exists it fails with `OSError` on that bare name |
| CondaCache.HashFileAsWrittenIgnoresDirectory | tox_conda/plugin.py:483-484 | for a file in a sub-directory that is absent from the working directory, the written `hash_file` fails with `OSError` on the bare name, while the intended one returns the digest of the file |
| CondaCache.HashFile | tox_conda/plugin.py:483-487 | the digest succeeds exactly when the file at the resolved path exists, is the SHA-1 of its content, and fails with `OSError` on that path otherwise |
| CondaCache.EnvFileName | tox_conda/plugin.py:120-122 | a path with no file raises `OSError` on that path; a document that is not a mapping cannot be indexed (`TypeError`); a mapping without `name` raises `KeyError('name')`; otherwise the result is the document's `name` |
| CondaCache.SelectEnv | tox_conda/plugin.py:111-127 | the `conda_name` attribute of tox's parsed options wins over the `conda_name` setting when non-empty. A chosen name gives `-n` and the name. Otherwise a set `conda_env` gives `-n`, the `name` of the YAML document loaded from the resolved path, that path as `env_path`, and as `env_hash` the SHA-1 of the file `hash_file` opens (the path's last component). Loading fails first, with the loader's error; then the digest fails with `OSError` on the bare name. Otherwise the result is `-p` and the environment directory. Only the environment-file route can fail, and only it adds `env_path`/`env_hash` |
| CondaCache.AddList | tox_conda/plugin.py:129-148 | `if xs: d[key] = xs`: the key is added exactly when the list is set and non-empty, and every other entry is untouched |
| CondaCache.SpecEntries | tox_conda/plugin.py:133-136 | nothing is recorded without a `conda_spec`. With one, `spec` holds it and `spec_hash` the SHA-1 of the file named by the resolved path's last component. The entries fail exactly when no file of that name exists, with `OSError` on the bare name |
| CondaCache.CondaSection | tox_conda/plugin.py:108-148 | the table always holds a well-formed selector and well-formed optional entries; building it fails exactly when the selector or the spec digest fails, with the selector's error when it fails and the spec digest's `OSError` otherwise |
| CondaCache.AssembleEntry | tox_conda/plugin.py:129-148 | the table holds under each key exactly the value last written there, in the order the source writes them: the selector, `deps`, the spec entries, `channels`, `install_args`, `create_args` |
| CondaCache.CondaSectionEntry | tox_conda/plugin.py:108-148 | every entry of a built table is the one the selector, the spec entries or a configured list put there, and no other key appears |
| CondaCache.CondaSectionSelector | tox_conda/plugin.py:111-127 | `env_spec` and `env` of the table are those the selector chose |
| CondaCache.CondaSectionEnvFileEntries | tox_conda/plugin.py:115-121 | `env_path` and `env_hash` are in the table exactly when no name was chosen and `conda_env` is set |
| CondaCache.CondaSectionListEntries | tox_conda/plugin.py:126-148 | each of `deps`, `channels`, `install_args`, `create_args` is present exactly when its setting is a non-empty list, and then holds that list |
| CondaCache.CondaSectionSpecEntries | tox_conda/plugin.py:130-133 | `spec` and `spec_hash` are present exactly when `conda_spec` is non-empty, and `spec` holds it |
| CondaCache.PythonCache | tox_conda/plugin.py:150-154 | the host's fingerprint gains the `conda` table and keeps every other key and value; when the table cannot be built, the table's error escapes |
| Commands.CreateCommand | tox_conda/plugin.py:216-228 | the accumulated create command equals the blank-joined word list `'exe' create <env_spec> '<env>' <python> --yes --quiet` followed by each create argument in single quotes; the tear-down does nothing |
| Commands.CreateCommandSplits | tox_conda/plugin.py:218-225 | the create command reads back as `exe create <env_spec> <env> <python> --yes --quiet` and then the create arguments, in order, each one word |
| Commands.InstallCommand | tox_conda/plugin.py:230-234 | there is no install command exactly when the table has neither `deps` nor `spec` |
| Commands.AppendInstallSpaced | tox_conda/plugin.py:236-258 | the accumulation loops put, after the head and one blank apart: `--channel c` per channel, then the install args, the python pin, the deps, and `--file=<spec>` last |
| Commands.InstallCommandLine | tox_conda/plugin.py:236-258 | the install command is its head followed by the tail words in that fixed order |
| Commands.InstallCommandSplits | tox_conda/plugin.py:236-258 | the install command reads back as `exe install --quiet --yes <env_spec> <env>`, then `--channel c` per channel, the install args, the python pin, the deps, and `--file=<spec>` exactly when there is a spec |
| Commands.SpacedChannels | tox_conda/plugin.py:240-241 | each `--channel c` piece becomes the two words `--channel` and `c` |
| Commands.EnvCreateCommand | tox_conda/plugin.py:188-214 | each error route is stated: a missing `env_path` raises `KeyError('env_path')`; a path with no document raises `OSError` on it; a document that is not a mapping gives `TypeError`; a missing `dependencies` raises `KeyError('dependencies')`; a `dependencies` that is not a list gives `AttributeError('append')`. It succeeds exactly when none of these applies. The written file equals the loaded one with the python pin appended to `dependencies` and no other entry changed. The tear-down removes the temporary file |
| Commands.EnvCreateCommandSplits | tox_conda/plugin.py:209 | the command reads back as `exe env create --file <tmp> --quiet --force` |
| Commands.RunPrefixSplits | tox_conda/plugin.py:265-271 | the run prefix reads back as `exe run <env_spec> <env> --live-stream` |
| Commands.ListCommandSplits | tox_conda/plugin.py:375-377 | the listing command reads back as `exe env list --json` |
| Shlex.SplitCommandLine | tox_conda/plugin.py:171 | `shlex.split` gives back the texts of a command line built from single-quoted words without a quote and bare words of plain characters |
| Shlex.SplitUnclosedQuote | tox_conda/plugin.py:170-174 | any command line of safe words followed by a word that opens a single quote and never closes it makes `shlex.split` raise `ValueError('No closing quotation')`, which the `CalledProcessError` handler does not catch |
| Discovery.FindCondaAsWritten | tox_conda/plugin.py:460-480 | `_CONDA_EXE`, then `CONDA_EXE`, each resolved and trusted if non-empty; then `which("conda")`. `Fail("Failed to find 'conda' executable.")` comes exactly when all three are missing or empty. A `which` result is resolved and accepted whatever its `-h` probe exits with, and a probe that cannot start raises `OSError` on the resolved path |
| Discovery.FindConda | tox_conda/plugin.py:460-480 | the same priority; a `which` result is accepted only when its `-h` probe exits 0, a non-zero exit also ends in the `Fail`, and a probe that cannot start raises `OSError` |
| Discovery.FindCondaAgrees | tox_conda/plugin.py:472-477 | whatever the intended lookup finds, the written one finds too; they differ exactly when the lookup reaches a `which` result whose probe exits non-zero |
| Discovery.FindCondaAcceptsFailingProbe | tox_conda/plugin.py:472-477 | a `conda` on the path whose `-h` exits with status 1 is accepted as written and rejected as intended |
| Runner.RunCreate | tox_conda/plugin.py:170-176 | the tear-down runs last whatever happens. The create command runs exactly when it splits. The outcome is success exactly when it splits and exits 0. A non-zero exit becomes `Fail("Failed to create '<env_dir>' conda environment. Error: …")` and a split error escapes unchanged |
| Runner.RunInstall | tox_conda/plugin.py:178-186 | no install command runs nothing and succeeds. Otherwise the command runs when it splits, succeeds exactly when it exits 0, and a non-zero exit becomes `Fail("Failed to install dependencies in conda environment. Error: …")` |
| Runner.Prepare | tox_conda/plugin.py:162-169 | the environment-file route writes the pinned copy of the file before running anything, and fails with the environment-file error before anything runs; the plain route writes nothing and uses the create command |
| Runner.CreateThenInstall | tox_conda/plugin.py:170-186 | the files written come first; the tear-down always appears in the trace, as the `finally` demands; a failed create is the outcome and nothing is installed; after a successful create the outcome is the install step's |
| Runner.CreateThenInstallRuns | tox_conda/plugin.py:170-186 | the programs run are the create command when it splits, then the install command, only when there is one, the create command succeeded, and it splits |
| Runner.CreateThenInstallRunCount | tox_conda/plugin.py:170-186 | at most two programs run, the second only after the first exited 0; on success every program run exited 0, and there were two exactly when there is an install command |
| Runner.CreateThenInstallFirstRun | tox_conda/plugin.py:170-171 | the first program run is the split create command, whatever follows |
| Runner.CreateFlow | tox_conda/plugin.py:162-186 | at most two programs run, and the second (install) runs only after the first (create) exited 0; an environment file that cannot be prepared fails before anything runs; otherwise a failed create gives the create step's outcome and a successful one the install step's |
| Runner.CreateFlowSucceeds | tox_conda/plugin.py:170-186 | a successful creation ran create and, exactly when the table has `deps` or `spec`, install, every run exiting 0 |
| Runner.CreateFlowRemovesEnvFile | tox_conda/plugin.py:198-212 | the environment-file route first writes the pinned file and always removes it again |
| Runner.CreatePythonEnv | tox_conda/plugin.py:156-186 | with the lookup `find_conda` performs as written: a lookup failure or a failing table ends the call before anything runs, with that error. An environment file that cannot be prepared fails with its error before anything runs; a failed create gives `Fail("Failed to create '<env_dir>' conda environment. Error: …")` or the split error, and after a successful create the outcome is the install step's (`Fail("Failed to install dependencies in conda environment. Error: …")` on a non-zero exit). At most two programs run, the second only after the first exited 0 |
| Runner.CreatePythonEnvAsWritten | tox_conda/plugin.py:156-186 | the same guarantees for the method with the written dispatch on `conda_env` |
| Runner.CreatePythonEnvCreateFails | tox_conda/plugin.py:170-174 | for `create_python_env` as written, without `conda_env`: a `conda create` that exits non-zero is the only program run, and the call ends with `Fail("Failed to create '<env_dir>' conda environment. Error: …")` carrying that run's description |
| Runner.CreatePythonEnvRunsCreate | tox_conda/plugin.py:156-171 | for `create_python_env` as written: whenever `find_conda` succeeds and `conda_env` is unset, the first program run is `exe create <env_spec> <env> python=<version> --yes --quiet` plus the configured create arguments |
| Runner.SectionSelector | tox_conda/plugin.py:111-127 | the selector flag is `-n` for a chosen name or an environment file and `-p` otherwise; the selected name is the chosen name, the YAML `name` or the environment directory |
| Runner.CreatePythonEnvAsWrittenKeyError | tox_conda/plugin.py:162-165 | with both a name and `conda_env` set, `create_python_env` as written raises `KeyError('env_path')` before running anything; the corrected method does not |
| Runner.CreateFlowOutcome | tox_conda/plugin.py:166-186 | the plain create route never fails with a `KeyError` |
| Runner.CreatePythonEnvAgrees | tox_conda/plugin.py:162-169 | when a name and `conda_env` are not both set, the written and the corrected dispatch behave identically |
| Runner.EnsureEnvExists | tox_conda/plugin.py:366-391 | a missing directory is created (the outcome is creation's); an existing directory already created by this runner is accepted at once; otherwise a failed `find_conda` or an unsplittable listing command escapes with its own error, a failed listing gives `Fail("Failed to list conda environments. Error: …")`, and a directory conda does not list gives `Fail("<env_dir> already exists, but it is not a conda environment. Delete in manually first.")` |
| Runner.EnsureEnvExistsListing | tox_conda/plugin.py:374-391 | an existing, not yet accepted directory is accepted exactly when conda lists it. Otherwise the check fails with `Fail("<env_dir> already exists, but it is not a conda environment. Delete in manually first.")`, or with `Fail("Failed to list conda environments. Error: …")` when the listing fails |
| Runner.EnsureEnvExistsSettles | tox_conda/plugin.py:366-373 | after a passed check the `_created` flag is set, and the next check returns at once |
| Runner.CondaRequest | tox_conda/plugin.py:264-291 | the request is built exactly when `find_conda` as written, the table and the split of the prefix succeed, and otherwise fails with the error of the first of them that fails; the request passed on has the split run prefix before the original command, and the same cwd, env, stdin, run id and allow list |
| Runner.CondaRequestCommand | tox_conda/plugin.py:264-291 | the command becomes `[exe, "run", env_spec, env, "--live-stream"] + cmd` |
| Runner.CondaRequestByPrefix | tests/test_conda.py:12-16 | with neither a name nor an environment file, commands run as `exe run -p <env_dir> --live-stream <cmd>` |
| FilteredInfo.PopEach | tox_conda/FilteredInfo.py:48-49 | popping each key with a default removes exactly those keys and keeps every other value |
| FilteredInfo.Filtered | tox_conda/FilteredInfo.py:42-50 | outside the configured section the value passes unchanged. In it, a dictionary loses exactly the filter keys and keeps every other value; a list with filter keys raises `TypeError`, and is the only failure; a list without filter keys and any other value pass unchanged |
| FilteredInfo.FilteredWithoutKeys | tox_conda/FilteredInfo.py:48 | `filter_keys` of `None` behaves like an empty list: nothing changes |
| FilteredInfo.FilteredKeepsOthers | tox_conda/FilteredInfo.py:48-49 | a key that is not filtered keeps its value, and no key is added |
| FilteredInfo.FilteredIdempotent | tox_conda/FilteredInfo.py:48-49 | filtering twice is filtering once |
| FilteredInfo.FilteredAbsentKeys | tox_conda/FilteredInfo.py:49 | filter keys absent from the dictionary are ignored without error |
| EnvActivator.ActivationFields | tox_conda/env_activator.py:82-85 | `"conda.bat activate <envdir>".split()` is `conda.bat`, `activate` and the whitespace-separated pieces of the directory |
| EnvActivator.WrapWindowsShape | tox_conda/env_activator.py:81-85 | the Windows command starts with `conda.bat activate` and the directory's pieces, then `&&`, then the original arguments in order |
| EnvActivator.WrapPosix | tox_conda/env_activator.py:38-52 | the POSIX wrapper always returns `/bin/sh` and the path of the script |
| EnvActivator.PosixScriptLines | tox_conda/env_activator.py:39-50 | the script's first line is `eval $(<conda_exe> shell.posix activate <envdir>)` and what follows the newline is the quoted arguments joined by single blanks |
| EnvActivator.Invoke | tox_conda/env_activator.py:18-20 | calling a wrapper passes the keyword arguments through unchanged, and calling the original popen hands it the arguments as given |
| EnvActivator.InvokeNested | tox_conda/env_activator.py:18-20 | two nested wrappers wrap in turn, the outer with the first temporary name and the inner with the second, so on POSIX the original popen runs the inner wrapper's own script |
| EnvActivator.InvokeWrapped | tox_conda/env_activator.py:18-20 | a wrapper around the host's popen hands it exactly the wrapped arguments and the unchanged keyword arguments |
| EnvActivator.InvokePosix | tox_conda/env_activator.py:43-52 | on POSIX the host's popen only sees `/bin/sh` and the path of the script the wrapper's fresh temporary name gives |
| EnvActivator.Enter | tox_conda/env_activator.py:114-119 | the action's `via_popen` is wrapped when there is an action and the environment's `popen` otherwise; the other slot is untouched and the original is kept |
| EnvActivator.ActivateEnvRestores | tox_conda/env_activator.py:110-127 | a block that ends normally leaves both popen slots as they were |
| EnvActivator.ActivateEnvRaised | tox_conda/env_activator.py:121-127 | a block that raises leaves the wrapper installed, since the restore is not in a `finally` |
| EnvActivator.ActivatedCalls | tox_conda/env_activator.py:114-121 | inside the block, a call through the replaced slot reaches the original popen with the wrapped arguments |

## Left out

- Running programs. `subprocess.run`, the executor's polling loop and `_call_python_in_conda_env` are out of the model. Exit statuses are inputs, and failure texts come from a host function. A create, install or listing command that cannot be started is not modelled; only the `conda -h` probe of `find_conda` models that case, as `OSError`.
- `_get_python`: it runs the environment's interpreter and parses its output, and is not part of this model.
- YAML: `ruamel.yaml` load and dump are not modelled. Documents are given as a map from path to parsed document.
- Temporary files: naming under `tempfile` is not modelled. The file name is an input.
- JSON: the `json.loads` of the environment listing is not modelled. The listing is given already decoded.
- SHA-1: the digest is an uninterpreted function.
- `pipes.quote`: it is an uninterpreted function parameter of the POSIX wrapper.
- Path handling: `Path.resolve` is a host function, and `str(Path)` conversions are treated as the identity.
- Commands.EnvCreateCommand: the stored `env_path` is already resolved (plugin.py:120), and `Path.resolve` is taken to be idempotent, so the second `resolve` at plugin.py:192 is not applied again.
- Host: the YAML documents and the file contents are independent inputs, so the model admits hosts in which a path loads as YAML but has no readable content; no stated property depends on the two agreeing.
- CondaCache.Basename: paths are POSIX paths. Only `/` separates components, so the Windows separator `\` that `PurePath.name` also honours there is not modelled.
- Windows `COMSPEC` save and restore, and the `cmd.exe` search (env_activator.py:66-79, 87-101): these mutate the process environment and probe the file system.
- The POSIX wrapper's `__del__` removal of its script is not modelled.
- Host plumbing is not modelled: tox's `Info.compare`, plugin registration, configuration declarations, `installer`, `prepend_env_var_path`, `_default_pass_env`, the `env_*` path queries, and the caching of the executor object.
- PythonVersion.IsDigit: only ASCII digits count, while Python's `\d` also matches other Unicode decimal digits.
- Runner.CreatePythonEnv: requires a non-empty `base_python`, which tox always supplies. An empty list would raise `IndexError` at plugin.py:92.
- CondaCache.SelectEnv: the YAML `name` is taken to be a scalar. A `name` that is null, a list or a mapping is stored as is by the source but fails with `TypeError` in the model (see `CondaCache.EnvFileName`).
- CondaCache.HashFile: the corrected digest is stated on its own. The fingerprint, like the source, is built with the written `hash_file`.
- FilteredInfo.Filtered: only dictionaries, lists and values without `copy` are distinguished. Other types with a `copy` method are not modelled.
- Runner.EnsureEnvExists: the outcome of `create_python_env` is an input, not a call.

## Findings

| source | as written | input that shows it | evidently intended | confidence | as-written member | corrected member |
|---|---|---|---|---|---|---|
| tox_conda/plugin.py:472-477 | the `-h` probe runs without `check=True`, so the `CalledProcessError` handler can never fire and any exit status is accepted | neither `_CONDA_EXE` nor `CONDA_EXE` set, `which("conda")` finds a program whose `-h` exits 1 | a probe that exits non-zero falls through to `Fail("Failed to find 'conda' executable.")` | high, not executed | Discovery.FindCondaAsWritten, Discovery.FindCondaAcceptsFailingProbe | Discovery.FindConda, Discovery.FindCondaAgrees |
| tox_conda/plugin.py:483-487 | `hash_file` opens `file.name`, the last path component, relative to the working directory | `conda_env = envs/environment.yml` with no `environment.yml` in the working directory: `OSError` (or the digest of an unrelated file of that name) | the digest of the file at the resolved path | high, not executed | CondaCache.HashFileAsWritten, CondaCache.HashFileAsWrittenIgnoresDirectory | CondaCache.HashFile |
| tox_conda/plugin.py:162-165 | `create_python_env` chooses the environment-file command whenever `conda_env` is set, but `python_cache` only records `env_path` when no name was chosen | `conda_name = foo` and `conda_env = environment.yml` together | either create by the chosen name, as the fingerprint's selector says (modelled), or run `env create` from the file with `-n <name>` | medium, not executed | Runner.CreatePythonEnvAsWritten, Runner.CreatePythonEnvAsWrittenKeyError | Runner.CreatePythonEnv, Runner.CreatePythonEnvAgrees |

=== FILE: cache.dfy ===
/** The environment's configuration and the "conda" cache fingerprint
    `CondaEnvRunner.python_cache` derives from it (tox_conda/plugin.py). */
module CondaCache {
  import opened Outcomes

  /** A fingerprint value: text, a list of texts, or a nested table. */
  datatype Value = Str(text: string) | Strs(items: seq<string>) | Table(fields: map<string, Value>)

  /** The settings of one environment that the plugin reads. `None` is an
      unset setting; the `Option` lists keep the `default=None` of their
      declarations. */
  datatype Config = Config(
    optionName: Option<string>,        // the `conda_name` attribute of tox's parsed options
    condaName: Option<string>,         // conda_name
    condaEnv: Option<string>,          // conda_env: an environment.yml path
    condaSpec: Option<string>,         // conda_spec: a spec-file path
    condaDeps: seq<string>,            // conda_deps, already unrolled
    channels: Option<seq<string>>,     // conda_channels
    installArgs: Option<seq<string>>,  // conda_install_args
    createArgs: Option<seq<string>>,   // conda_create_args
    basePython: seq<string>,           // base_python
    envDir: string)                    // the environment directory, as text

  /** The YAML values an environment file holds. */
  datatype Yaml = Null | Scalar(text: string) | Sequence(items: seq<Yaml>) | Mapping(entries: map<string, Yaml>)

  /** What the file system and the libraries answer: `Path.resolve`, what
      `YAML().load` reads from each existing path, the files `open` can read
      (by the name it is given) and SHA-1 as a digest function. */
  datatype Host = Host(
    resolve: string -> string,
    documents: map<string, Yaml>,
    files: map<string, string>,
    sha1: string -> string)

  /** The final component of a path, as `pathlib.PurePath.name` gives it. */
  function Basename(p: string): (r: string)
    ensures |r| <= |p|
    ensures forall i :: 0 <= i < |r| ==> r[i] != '/'
  {
    if p == [] || p[|p| - 1] == '/' then "" else Basename(p[..|p| - 1]) + [p[|p| - 1]]
  }

  lemma {:induction false} BasenameOfJoin(dir: string, name: string)
    requires forall i :: 0 <= i < |name| ==> name[i] != '/'
    ensures Basename(dir + "/" + name) == name
  {
    var p := dir + "/" + name;
    if name == [] {
      assert p[|p| - 1] == '/';
    } else {
      var init := name[..|name| - 1];
      assert p[..|p| - 1] == dir + "/" + init;
      assert p[|p| - 1] == name[|name| - 1];
      BasenameOfJoin(dir, init);
      assert init + [name[|name| - 1]] == name;
    }
  }

  /** `hash_file(file)` as written: it opens `file.name`, the final component
      only, so the file read is the one of that name in the working directory. */
  function HashFileAsWritten(path: string, host: Host): (r: Result<string>)
    ensures r.Success? <==> Basename(path) in host.files
    ensures r.Success? ==> r.value == host.sha1(host.files[Basename(path)])
    ensures r.Failure? ==> r.error == OsError(Basename(path))
  {
    var target := Basename(path);
    if target in host.files then Success(host.sha1(host.files[target])) else Failure(OsError(target))
  }

  /** `hash_file` reading the file it was given: the digest of that file's
      contents, or the `FileNotFoundError` of opening it. */
  function HashFile(path: string, host: Host): (r: Result<string>)
    ensures r.Success? <==> path in host.files
    ensures r.Success? ==> r.value == host.sha1(host.files[path])
    ensures r.Failure? ==> r.error == OsError(path)
  {
    if path in host.files then Success(host.sha1(host.files[path])) else Failure(OsError(path))
  }

  /** The file as written hashes is the same-named file of the working
      directory: for a file kept in a sub-directory it fails (or hashes an
      unrelated file) where the intended `hash_file` reads the file itself. */
  lemma HashFileAsWrittenIgnoresDirectory(dir: string, name: string, host: Host)
    requires forall i :: 0 <= i < |name| ==> name[i] != '/'
    requires dir + "/" + name in host.files && name !in host.files
    ensures HashFileAsWritten(dir + "/" + name, host) == Failure(OsError(name))
    ensures HashFile(dir + "/" + name, host) == Success(host.sha1(host.files[dir + "/" + name]))
  {
    BasenameOfJoin(dir, name);
  }

  /** An optional list entry, when present, holds a list of texts. */
  predicate ListShaped(d: map<string, Value>, key: string)
  {
    key in d ==> d[key].Strs?
  }

  /** The shape of a "conda" table: the environment selector is always
      present, and the optional entries hold the kind of value the command
      generators read. */
  predicate WellFormedConda(d: map<string, Value>)
  {
    && "env_spec" in d && d["env_spec"].Str?
    && "env" in d && d["env"].Str?
    && ListShaped(d, "deps") && ListShaped(d, "channels")
    && ListShaped(d, "install_args") && ListShaped(d, "create_args")
    && ("spec" in d ==> d["spec"].Str?)
  }

  /** `conda_cache_conf.get(key, [])` for a list entry. */
  function ListOf(d: map<string, Value>, key: string): seq<string>
  {
    if key in d && d[key].Strs? then d[key].items else []
  }

  /** The name that selects the environment: the command-line option wins
      when it is set and non-empty, otherwise the `conda_name` setting. */
  function ChosenName(cfg: Config): Option<string>
  {
    if Given(cfg.optionName) then cfg.optionName else cfg.condaName
  }

  /** The environment is described by an environment file: no name was chosen and `conda_env` is set. */
  predicate FromEnvFile(cfg: Config)
  {
    !Given(ChosenName(cfg)) && Given(cfg.condaEnv)
  }

  /** `YAML().load(env_path)["name"]`: a path that does not exist raises
      `OSError`, a document that is not a mapping cannot be indexed by a
      key, and a mapping without `name` raises `KeyError`. */
  function EnvFileName(host: Host, envPath: string): (r: Result<string>)
    ensures envPath !in host.documents ==> r == Failure(OsError(envPath))
    ensures envPath in host.documents && !host.documents[envPath].Mapping? ==> r == Failure(TypeError)
    ensures envPath in host.documents && host.documents[envPath].Mapping? ==>
      ("name" !in host.documents[envPath].entries ==> r == Failure(KeyError("name")))
    ensures r.Success? <==>
      && envPath in host.documents && host.documents[envPath].Mapping?
      && "name" in host.documents[envPath].entries && host.documents[envPath].entries["name"].Scalar?
    ensures r.Success? ==> r.value == host.documents[envPath].entries["name"].text
  {
    if envPath !in host.documents then Failure(OsError(envPath))
    else
      match host.documents[envPath]
      case Mapping(entries) =>
        if "name" !in entries then Failure(KeyError("name"))
        else if entries["name"].Scalar? then Success(entries["name"].text)
        else Failure(TypeError)
      case _ => Failure(TypeError)
  }

  /** The environment selector of the fingerprint (plugin.py lines 111-127):
      `-n` and the chosen name; else `-n`, the environment file's `name`, its
      resolved path and the digest `hash_file` gives for it; else `-p` and
      the environment directory. */
  function SelectEnv(cfg: Config, host: Host): (r: Result<map<string, Value>>)
    ensures r.Failure? ==> FromEnvFile(cfg)
    ensures FromEnvFile(cfg) && EnvFileName(host, host.resolve(cfg.condaEnv.value)).Failure? ==>
      r == Failure(EnvFileName(host, host.resolve(cfg.condaEnv.value)).error)
    ensures FromEnvFile(cfg) && EnvFileName(host, host.resolve(cfg.condaEnv.value)).Success? ==>
      (r.Success? <==> HashFileAsWritten(host.resolve(cfg.condaEnv.value), host).Success?)
    ensures FromEnvFile(cfg) && EnvFileName(host, host.resolve(cfg.condaEnv.value)).Success? && r.Failure? ==>
      r.error == OsError(Basename(host.resolve(cfg.condaEnv.value)))
    ensures r.Success? ==> WellFormedConda(r.value) && SelectorKeys(r.value)
    ensures r.Success? ==>
      r.value["env_spec"] == Str(if Given(ChosenName(cfg)) || Given(cfg.condaEnv) then "-n" else "-p")
    ensures r.Success? ==>
      r.value["env"] == Str(if Given(ChosenName(cfg)) then ChosenName(cfg).value
                            else if Given(cfg.condaEnv) then EnvFileName(host, host.resolve(cfg.condaEnv.value)).value
                            else cfg.envDir)
    ensures r.Success? ==> ("env_path" in r.value <==> FromEnvFile(cfg))
    ensures r.Success? ==> ("env_hash" in r.value <==> FromEnvFile(cfg))
    ensures r.Success? && FromEnvFile(cfg) ==> r.value["env_path"] == Str(host.resolve(cfg.condaEnv.value))
    ensures r.Success? && FromEnvFile(cfg) ==>
      r.value["env_hash"] == Str(host.sha1(host.files[Basename(host.resolve(cfg.condaEnv.value))]))
  {
    var name := ChosenName(cfg);
    if Given(name) then
      Success(map["env_spec" := Str("-n"), "env" := Str(name.value)])
    else if Given(cfg.condaEnv) then
      var envPath := host.resolve(cfg.condaEnv.value);
      var envName :- EnvFileName(host, envPath);
      var envHash :- HashFileAsWritten(envPath, host);
      Success(map["env_spec" := Str("-n"), "env" := Str(envName),
                  "env_path" := Str(envPath), "env_hash" := Str(envHash)])
    else
      Success(map["env_spec" := Str("-p"), "env" := Str(cfg.envDir)])
  }

  /** `if xs: conda_dict[key] = xs`: the entry is set exactly when the list
      is set and non-empty, and every other entry is left alone. */
  function AddList(d: map<string, Value>, key: string, xs: Option<seq<string>>): (r: map<string, Value>)
    ensures r.Keys == if GivenList(xs) then d.Keys + {key} else d.Keys
    ensures GivenList(xs) ==> r[key] == Strs(xs.value)
    ensures forall k :: k in d && k != key ==> r[k] == d[k]
    ensures WellFormedConda(d) && IsListKey(key) ==> WellFormedConda(r)
  {
    if GivenList(xs) then d[key := Strs(xs.value)] else d
  }

  /** The keys whose entries are lists of texts. */
  predicate IsListKey(key: string)
  {
    key == "deps" || key == "channels" || key == "install_args" || key == "create_args"
  }

  /** The spec-file entries: the path and its digest, or nothing. */
  function SpecEntries(cfg: Config, host: Host): (r: Result<map<string, Value>>)
    ensures !Given(cfg.condaSpec) ==> r == Success(map[])
    ensures r.Success? ==> r.value.Keys == if Given(cfg.condaSpec) then {"spec", "spec_hash"} else {}
    ensures r.Success? && Given(cfg.condaSpec) ==> r.value["spec"] == Str(cfg.condaSpec.value)
    ensures Given(cfg.condaSpec) ==> (r.Success? <==> Basename(host.resolve(cfg.condaSpec.value)) in host.files)
    ensures r.Success? && Given(cfg.condaSpec) ==>
      r.value["spec_hash"] == Str(host.sha1(host.files[Basename(host.resolve(cfg.condaSpec.value))]))
    ensures r.Failure? ==> r.error == OsError(Basename(host.resolve(cfg.condaSpec.value)))
  {
    if Given(cfg.condaSpec) then
      var specHash :- HashFileAsWritten(host.resolve(cfg.condaSpec.value), host);
      Success(map["spec" := Str(cfg.condaSpec.value), "spec_hash" := Str(specHash)])
    else Success(map[])
  }

  /** The "conda" table of the fingerprint (plugin.py lines 109-148): it
      fails only where the selector or the spec-file digest fails. */
  function CondaSection(cfg: Config, host: Host): (r: Result<map<string, Value>>)
    ensures r.Success? ==> WellFormedConda(r.value)
    ensures r.Success? <==> SelectEnv(cfg, host).Success? && SpecEntries(cfg, host).Success?
    ensures r.Failure? ==>
      r.error == (if SelectEnv(cfg, host).Failure? then SelectEnv(cfg, host).error else SpecEntries(cfg, host).error)
  {
    var selection :- SelectEnv(cfg, host);
    var spec :- SpecEntries(cfg, host);
    Success(Assemble(selection, spec, cfg))
  }

  /** The optional entries laid over the selector, in the order the source sets them. */
  function Assemble(selection: map<string, Value>, spec: map<string, Value>, cfg: Config): (r: map<string, Value>)
    requires WellFormedConda(selection) && "spec" !in selection && "spec_hash" !in selection
    requires spec.Keys <= {"spec", "spec_hash"} && ("spec" in spec ==> spec["spec"].Str?)
    ensures WellFormedConda(r)
  {
    var withDeps := AddList(selection, "deps", if cfg.condaDeps != [] then Some(cfg.condaDeps) else None);
    var withSpec := withDeps + spec;
    assert WellFormedConda(withSpec) by {
      assert forall k :: k in withSpec && k !in spec ==> withSpec[k] == withDeps[k];
    }
    AddList(AddList(AddList(withSpec, "channels", cfg.channels), "install_args", cfg.installArgs),
            "create_args", cfg.createArgs)
  }

  /** Present only when the environment came from an environment file. */
  predicate SelectorKeys(selection: map<string, Value>)
  {
    selection.Keys <= {"env_spec", "env", "env_path", "env_hash"}
  }

  /** The keys of the table of equal length differ, by a character. */
  lemma KeysDistinct()
    ensures "env_spec" != "env_path" && "env_spec" != "env_hash" && "env_path" != "env_hash"
    ensures "channels" != "env_spec" && "channels" != "env_path" && "channels" != "env_hash"
    ensures "deps" != "spec"
  {
    assert "env_spec"[4] == 's' && "env_path"[4] == 'p' && "env_hash"[4] == 'h' && "channels"[0] == 'c';
    assert "deps"[0] == 'd' && "spec"[0] == 's';
  }

  /** What the table holds under `k`, read off the settings: the entry
      written last wins, in the order create arguments, install arguments,
      channels, spec entries, deps, selector. */
  function Entry(selection: map<string, Value>, spec: map<string, Value>, cfg: Config, k: string): Option<Value>
  {
    if k == "create_args" && GivenList(cfg.createArgs) then Some(Strs(cfg.createArgs.value))
    else if k == "install_args" && GivenList(cfg.installArgs) then Some(Strs(cfg.installArgs.value))
    else if k == "channels" && GivenList(cfg.channels) then Some(Strs(cfg.channels.value))
    else if k in spec then Some(spec[k])
    else if k == "deps" && cfg.condaDeps != [] then Some(Strs(cfg.condaDeps))
    else if k in selection then Some(selection[k])
    else None
  }

  /** The table holds exactly the entries `Entry` reads off the settings. */
  lemma AssembleEntry(selection: map<string, Value>, spec: map<string, Value>, cfg: Config, k: string)
    requires WellFormedConda(selection) && "spec" !in selection && "spec_hash" !in selection
    requires spec.Keys <= {"spec", "spec_hash"} && ("spec" in spec ==> spec["spec"].Str?)
    ensures k in Assemble(selection, spec, cfg) <==> Entry(selection, spec, cfg, k).Some?
    ensures k in Assemble(selection, spec, cfg) ==> Assemble(selection, spec, cfg)[k] == Entry(selection, spec, cfg, k).value
  {
    var withDeps := AddList(selection, "deps", if cfg.condaDeps != [] then Some(cfg.condaDeps) else None);
    var withSpec := withDeps + spec;
    var withChannels := AddList(withSpec, "channels", cfg.channels);
    var withInstall := AddList(withChannels, "install_args", cfg.installArgs);
    assert Assemble(selection, spec, cfg) == AddList(withInstall, "create_args", cfg.createArgs);
    AddListAt(selection, "deps", if cfg.condaDeps != [] then Some(cfg.condaDeps) else None, k);
    assert k in withSpec <==> k in spec || k in withDeps;
    assert k in withSpec ==> withSpec[k] == if k in spec then spec[k] else withDeps[k];
    AddListAt(withSpec, "channels", cfg.channels, k);
    AddListAt(withChannels, "install_args", cfg.installArgs, k);
    AddListAt(withInstall, "create_args", cfg.createArgs, k);
  }

  /** `AddList` seen at a single key. */
  lemma AddListAt(d: map<string, Value>, key: string, xs: Option<seq<string>>, k: string)
    ensures k in AddList(d, key, xs) <==> (k == key && GivenList(xs)) || k in d
    ensures k in AddList(d, key, xs) ==>
      AddList(d, key, xs)[k] == if k == key && GivenList(xs) then Strs(xs.value) else d[k]
  {
  }

  lemma CondaSectionAssembles(cfg: Config, host: Host)
    requires CondaSection(cfg, host).Success?
    ensures SelectEnv(cfg, host).Success? && SpecEntries(cfg, host).Success?
    ensures CondaSection(cfg, host).value
         == Assemble(SelectEnv(cfg, host).value, SpecEntries(cfg, host).value, cfg)
  {
  }

  /** The entry the table holds under `k`, when the table was built. */
  lemma CondaSectionEntry(cfg: Config, host: Host, k: string)
    requires CondaSection(cfg, host).Success?
    ensures var selection, spec := SelectEnv(cfg, host).value, SpecEntries(cfg, host).value;
      && SelectorKeys(selection)
      && (k in CondaSection(cfg, host).value <==> Entry(selection, spec, cfg, k).Some?)
      && (k in CondaSection(cfg, host).value ==> CondaSection(cfg, host).value[k] == Entry(selection, spec, cfg, k).value)
  {
    CondaSectionAssembles(cfg, host);
    var selection, spec := SelectEnv(cfg, host).value, SpecEntries(cfg, host).value;
    SelectorKeysNoSpec(selection);
    assert spec.Keys <= {"spec", "spec_hash"};
    AssembleEntry(selection, spec, cfg, k);
  }

  lemma SelectorKeysNoSpec(selection: map<string, Value>)
    requires SelectorKeys(selection)
    ensures "spec" !in selection && "spec_hash" !in selection
  {
  }

  /** The selector entries of the table are the ones `SelectEnv` chose. */
  lemma CondaSectionSelector(cfg: Config, host: Host)
    requires CondaSection(cfg, host).Success?
    ensures CondaSection(cfg, host).value["env_spec"] == SelectEnv(cfg, host).value["env_spec"]
    ensures CondaSection(cfg, host).value["env"] == SelectEnv(cfg, host).value["env"]
  {
    var selection, spec := SelectEnv(cfg, host).value, SpecEntries(cfg, host).value;
    CondaSectionEntry(cfg, host, "env_spec");
    EntryOfSelectorKey(selection, spec, cfg, "env_spec");
    CondaSectionEntry(cfg, host, "env");
    EntryOfSelectorKey(selection, spec, cfg, "env");
  }

  /** Only the selector writes its own keys. */
  lemma EntryOfSelectorKey(selection: map<string, Value>, spec: map<string, Value>, cfg: Config, key: string)
    requires SelectorKeys(selection) && spec.Keys <= {"spec", "spec_hash"}
    requires key == "env_spec" || key == "env" || key == "env_path" || key == "env_hash"
    ensures Entry(selection, spec, cfg, key) == if key in selection then Some(selection[key]) else None
  {
    KeysDistinct();
  }

  /** Only the spec entries write `spec` and `spec_hash`. */
  lemma EntryOfSpecKey(selection: map<string, Value>, spec: map<string, Value>, cfg: Config, key: string)
    requires SelectorKeys(selection) && spec.Keys <= {"spec", "spec_hash"}
    requires key == "spec" || key == "spec_hash"
    ensures Entry(selection, spec, cfg, key) == if key in spec then Some(spec[key]) else None
  {
    KeysDistinct();
  }

  /** The environment file's path and digest are recorded exactly when it selects the environment. */
  lemma CondaSectionEnvFileEntries(cfg: Config, host: Host)
    requires CondaSection(cfg, host).Success?
    ensures "env_path" in CondaSection(cfg, host).value <==> FromEnvFile(cfg)
    ensures "env_hash" in CondaSection(cfg, host).value <==> FromEnvFile(cfg)
  {
    var selection, spec := SelectEnv(cfg, host).value, SpecEntries(cfg, host).value;
    CondaSectionEntry(cfg, host, "env_path");
    EntryOfSelectorKey(selection, spec, cfg, "env_path");
    CondaSectionEntry(cfg, host, "env_hash");
    EntryOfSelectorKey(selection, spec, cfg, "env_hash");
  }

  /** The setting behind a list entry of the table. */
  function ConfiguredList(cfg: Config, key: string): Option<seq<string>>
    requires IsListKey(key)
  {
    if key == "deps" then Some(cfg.condaDeps)
    else if key == "channels" then cfg.channels
    else if key == "install_args" then cfg.installArgs
    else cfg.createArgs
  }

  /** Each optional list entry is present exactly when its setting is a
      non-empty list, and then holds that list. */
  lemma CondaSectionListEntries(cfg: Config, host: Host, key: string)
    requires CondaSection(cfg, host).Success? && IsListKey(key)
    ensures key in CondaSection(cfg, host).value <==> GivenList(ConfiguredList(cfg, key))
    ensures key in CondaSection(cfg, host).value ==>
      CondaSection(cfg, host).value[key] == Strs(ConfiguredList(cfg, key).value)
  {
    CondaSectionEntry(cfg, host, key);
    EntryOfListKey(SelectEnv(cfg, host).value, SpecEntries(cfg, host).value, cfg, key);
  }

  lemma EntryOfListKey(selection: map<string, Value>, spec: map<string, Value>, cfg: Config, key: string)
    requires SelectorKeys(selection) && spec.Keys <= {"spec", "spec_hash"} && IsListKey(key)
    ensures Entry(selection, spec, cfg, key)
         == if GivenList(ConfiguredList(cfg, key)) then Some(Strs(ConfiguredList(cfg, key).value)) else None
  {
    KeysDistinct();
  }

  /** The spec path is recorded exactly when `conda_spec` is given, and its digest with it. */
  lemma CondaSectionSpecEntries(cfg: Config, host: Host)
    requires CondaSection(cfg, host).Success?
    ensures var d := CondaSection(cfg, host).value;
      && ("spec" in d <==> Given(cfg.condaSpec))
      && ("spec_hash" in d <==> Given(cfg.condaSpec))
      && ("spec" in d ==> d["spec"] == Str(cfg.condaSpec.value))
  {
    var selection, spec := SelectEnv(cfg, host).value, SpecEntries(cfg, host).value;
    CondaSectionEntry(cfg, host, "spec");
    EntryOfSpecKey(selection, spec, cfg, "spec");
    CondaSectionEntry(cfg, host, "spec_hash");
    EntryOfSpecKey(selection, spec, cfg, "spec_hash");
  }

  /** `python_cache`: the host's fingerprint with the "conda" table added;
      every other entry of the host's fingerprint is kept as it was. */
  function PythonCache(cfg: Config, host: Host, base: map<string, Value>): (r: Result<map<string, Value>>)
    ensures r.Success? <==> CondaSection(cfg, host).Success?
    ensures r.Failure? ==> r.error == CondaSection(cfg, host).error
    ensures r.Success? ==> r.value.Keys == base.Keys + {"conda"}
    ensures r.Success? ==> r.value["conda"] == Table(CondaSection(cfg, host).value)
    ensures r.Success? ==> forall k :: k in base && k != "conda" ==> r.value[k] == base[k]
  {
    var section :- CondaSection(cfg, host);
    Success(base["conda" := Table(section)])
  }
}

=== FILE: commands.dfy ===
/** The conda command lines `CondaEnvRunner` builds from the "conda" table
    of the fingerprint, and the argument lists `shlex.split` makes of them. */
module Commands {
  import opened Outcomes
  import opened Text
  import opened Shlex
  import opened CondaCache

  /** What `tear_down()` does once the create command has run. */
  datatype TearDown = NoCleanup | RemoveFile(path: string)

  /** A create command line and its clean-up. */
  datatype Creation = Creation(command: string, tearDown: TearDown)

  /** The `-n`/`-p` flag of the table. */
  function EnvSpec(d: map<string, Value>): string
    requires WellFormedConda(d)
  {
    d["env_spec"].text
  }

  /** The environment name or prefix of the table. */
  function EnvName(d: map<string, Value>): string
    requires WellFormedConda(d)
  {
    d["env"].text
  }

  /** Every word is safe to write bare. */
  predicate AllBareSafe(ws: seq<string>)
  {
    forall i :: 0 <= i < |ws| ==> BareSafe(ws[i])
  }

  /** Every word is safe to write between single quotes. */
  predicate AllQuoteSafe(ws: seq<string>)
  {
    forall i :: 0 <= i < |ws| ==> QuoteSafe(ws[i])
  }

  /** The fixed words of the commands are written bare and read back unchanged. */
  lemma FixedWordsSafe()
    ensures BareSafe("create") && BareSafe("install") && BareSafe("env") && BareSafe("run") && BareSafe("list")
    ensures BareSafe("--yes") && BareSafe("--quiet") && BareSafe("--force") && BareSafe("--file")
    ensures BareSafe("--channel") && BareSafe("--live-stream") && BareSafe("--json")
    ensures BareSafe("-n") && BareSafe("-p")
  {
    DashWordSafe("create"); DashWordSafe("install"); DashWordSafe("env"); DashWordSafe("run");
    DashWordSafe("list"); DashWordSafe("--yes"); DashWordSafe("--quiet"); DashWordSafe("--force");
    DashWordSafe("--file"); DashWordSafe("--channel"); DashWordSafe("--live-stream");
    DashWordSafe("--json"); DashWordSafe("-n"); DashWordSafe("-p");
  }

  /** A word of lower-case letters and dashes is safe to write bare. */
  lemma DashWordSafe(w: string)
    requires w != [] && forall i :: 0 <= i < |w| ==> 'a' <= w[i] <= 'z' || w[i] == '-'
    ensures BareSafe(w)
  {
  }

  // ---------------------------------------------------------------- create

  /** The words `'exe' create <env_spec> '<env>' <python> --yes --quiet`. */
  function CreateHead(exe: string, python: string, d: map<string, Value>): seq<Arg>
    requires WellFormedConda(d)
  {
    [Quoted(exe), Bare("create"), Bare(EnvSpec(d)), Quoted(EnvName(d)), Bare(python), Bare("--yes"), Bare("--quiet")]
  }

  /** `_generate_create_command`: the fixed head, then every create argument
      between single quotes; nothing to clean up afterwards. */
  function CreateCommand(exe: string, python: string, d: map<string, Value>): (r: Creation)
    requires WellFormedConda(d)
    ensures r.tearDown == NoCleanup
    ensures r.command == CommandLine(CreateHead(exe, python, d) + QuotedAll(ListOf(d, "create_args")))
  {
    var head := CommandLine(CreateHead(exe, python, d));
    CommandLineAppend(CreateHead(exe, python, d), QuotedAll(ListOf(d, "create_args")));
    Creation(AppendEach(head, RenderAll(QuotedAll(ListOf(d, "create_args")))), NoCleanup)
  }

  /** The create command reads back as `exe create <env_spec> <env> <python>
      --yes --quiet` and then the create arguments, in order and unsplit. */
  lemma CreateCommandSplits(exe: string, python: string, d: map<string, Value>)
    requires WellFormedConda(d)
    requires QuoteSafe(exe) && BareSafe(EnvSpec(d)) && QuoteSafe(EnvName(d)) && BareSafe(python)
    requires AllQuoteSafe(ListOf(d, "create_args"))
    ensures Split(CreateCommand(exe, python, d).command)
         == Success([exe, "create", EnvSpec(d), EnvName(d), python, "--yes", "--quiet"] + ListOf(d, "create_args"))
  {
    var head := CreateHead(exe, python, d);
    var tail := QuotedAll(ListOf(d, "create_args"));
    CreateHeadWords(exe, python, d);
    AllSafeQuotedAll(ListOf(d, "create_args"));
    AllSafeConcat(head, tail);
    SplitCommandLine(head + tail);
    TextsOfConcat(head, tail);
    TextsOfQuotedAll(ListOf(d, "create_args"));
  }

  lemma CreateHeadWords(exe: string, python: string, d: map<string, Value>)
    requires WellFormedConda(d)
    requires QuoteSafe(exe) && BareSafe(EnvSpec(d)) && QuoteSafe(EnvName(d)) && BareSafe(python)
    ensures AllSafe(CreateHead(exe, python, d))
    ensures TextsOf(CreateHead(exe, python, d)) == [exe, "create", EnvSpec(d), EnvName(d), python, "--yes", "--quiet"]
  {
    FixedWordsSafe();
  }

  // --------------------------------------------------------------- install

  /** The pieces `--channel c` the install loop appends, one per channel. */
  function ChannelPieces(cs: seq<string>): (r: seq<string>)
    ensures |r| == |cs|
    ensures forall i :: 0 <= i < |cs| ==> r[i] == "--channel " + cs[i]
  {
    if cs == [] then [] else ["--channel " + cs[0]] + ChannelPieces(cs[1..])
  }

  /** The words the channel pieces split into: `--channel`, then the channel. */
  function ChannelWords(cs: seq<string>): seq<string>
  {
    if cs == [] then [] else ["--channel", cs[0]] + ChannelWords(cs[1..])
  }

  lemma {:induction false} SpacedChannels(cs: seq<string>)
    ensures Spaced(ChannelPieces(cs)) == Spaced(ChannelWords(cs))
  {
    if cs != [] {
      var c := cs[0];
      var pieces := ChannelPieces(cs);
      var words := ChannelWords(cs);
      assert pieces[1..] == ChannelPieces(cs[1..]);
      assert words == ["--channel", c] + ChannelWords(cs[1..]);
      assert words[1..] == [c] + ChannelWords(cs[1..]);
      assert words[1..][1..] == ChannelWords(cs[1..]);
      SpacedChannels(cs[1..]);
      assert "--channel " == "--channel" + " ";
    }
  }

  /** The spec path of the table, if it has one. */
  function SpecOf(d: map<string, Value>): Option<string>
    requires WellFormedConda(d)
  {
    if "spec" in d then Some(d["spec"].text) else None
  }

  /** The `--file=<spec>` word, present exactly when there is a spec. */
  function SpecWords(spec: Option<string>): seq<string>
  {
    if spec.Some? then ["--file=" + spec.value] else []
  }

  /** The words `'exe' install --quiet --yes <env_spec> '<env>'`. */
  function InstallHead(exe: string, d: map<string, Value>): seq<Arg>
    requires WellFormedConda(d)
  {
    [Quoted(exe), Bare("install"), Bare("--quiet"), Bare("--yes"), Bare(EnvSpec(d)), Quoted(EnvName(d))]
  }

  /** The words after the head, in the order the install command lists them. */
  function InstallWords(cs: seq<string>, ia: seq<string>, python: string, deps: seq<string>,
                        spec: Option<string>): seq<string>
  {
    ChannelWords(cs) + ia + [python] + deps + SpecWords(spec)
  }

  function InstallTail(python: string, d: map<string, Value>): seq<string>
    requires WellFormedConda(d)
  {
    InstallWords(ListOf(d, "channels"), ListOf(d, "install_args"), python, ListOf(d, "deps"), SpecOf(d))
  }

  /** The appending steps of the install command after its head. */
  function AppendInstall(head: string, cs: seq<string>, ia: seq<string>, python: string,
                         deps: seq<string>, spec: Option<string>): string
  {
    var withChannels := AppendEach(head, ChannelPieces(cs));
    var withArgs := AppendEach(withChannels, ia);
    var withPython := withArgs + " " + python;
    var withDeps := AppendEach(withPython, deps);
    if spec.Some? then withDeps + " --file=" + spec.value else withDeps
  }

  /** `_generate_install_command`: nothing to run when the table has neither
      dependencies nor a spec file; otherwise the head, the channels, the
      install arguments, the python pin, the dependencies and the spec file,
      each appended after a blank. */
  function InstallCommand(exe: string, python: string, d: map<string, Value>): (r: Option<string>)
    requires WellFormedConda(d)
    ensures r.None? <==> "deps" !in d && "spec" !in d
  {
    if "deps" !in d && "spec" !in d then None
    else
      Some(AppendInstall(CommandLine(InstallHead(exe, d)), ListOf(d, "channels"), ListOf(d, "install_args"),
                         python, ListOf(d, "deps"), SpecOf(d)))
  }

  lemma SpacedCons(w: string, ws: seq<string>)
    ensures Spaced([w] + ws) == " " + w + Spaced(ws)
  {
    assert ([w] + ws)[1..] == ws;
  }

  /** The appending steps put every tail word after the head, one blank apart. */
  lemma AppendInstallSpaced(head: string, cs: seq<string>, ia: seq<string>, python: string,
                            deps: seq<string>, spec: Option<string>)
    ensures AppendInstall(head, cs, ia, python, deps, spec)
         == head + Spaced(InstallWords(cs, ia, python, deps, spec))
  {
    var cw := ChannelWords(cs);
    var w1 := AppendEach(head, ChannelPieces(cs));
    assert w1 == head + Spaced(cw) by {
      SpacedChannels(cs);
    }
    var w2 := AppendEach(w1, ia);
    assert w2 == head + Spaced(cw + ia) by {
      AppendSpaced(head, cw, ia);
    }
    var w3 := w2 + " " + python;
    assert w3 == head + Spaced(cw + ia + [python]) by {
      AppendSpaced(head, cw + ia, [python]);
      AppendOne(head + Spaced(cw + ia), python);
    }
    var w4 := AppendEach(w3, deps);
    assert w4 == head + Spaced(cw + ia + [python] + deps) by {
      AppendSpaced(head, cw + ia + [python], deps);
    }
    var words := cw + ia + [python] + deps;
    if spec.Some? {
      assert w4 + " --file=" + spec.value == head + Spaced(words + SpecWords(spec)) by {
        AppendSpaced(head, words, ["--file=" + spec.value]);
        AppendOne(head + Spaced(words), "--file=" + spec.value);
        assert w4 + " --file=" + spec.value == w4 + " " + ("--file=" + spec.value);
      }
    } else {
      assert words + SpecWords(spec) == words;
    }
  }

  /** Appending one word is the accumulation loop run over that word. */
  lemma AppendOne(cmd: string, w: string)
    ensures AppendEach(cmd, [w]) == cmd + " " + w
  {
    assert AppendEach(cmd, [w]) == cmd + Spaced([w]);
    assert Spaced([w]) == " " + w + Spaced([]);
  }

  /** Appending to a head followed by spaced words spaces the new words too. */
  lemma AppendSpaced(head: string, ws: seq<string>, more: seq<string>)
    ensures AppendEach(head + Spaced(ws), more) == head + Spaced(ws + more)
  {
    SpacedConcat(ws, more);
  }

  /** The install command is the head followed by its tail words, one blank apart. */
  lemma InstallCommandLine(exe: string, python: string, d: map<string, Value>)
    requires WellFormedConda(d) && ("deps" in d || "spec" in d)
    ensures InstallCommand(exe, python, d)
         == Some(CommandLine(InstallHead(exe, d)) + Spaced(InstallTail(python, d)))
  {
    AppendInstallSpaced(CommandLine(InstallHead(exe, d)), ListOf(d, "channels"), ListOf(d, "install_args"),
                        python, ListOf(d, "deps"), SpecOf(d));
  }

  /** The install command reads back as `exe install --quiet --yes <env_spec>
      <env>`, then `--channel c` per channel, the install arguments, the python
      pin, the dependencies and `--file=<spec>` when there is a spec. */
  lemma InstallCommandSplits(exe: string, python: string, d: map<string, Value>)
    requires WellFormedConda(d) && ("deps" in d || "spec" in d)
    requires QuoteSafe(exe) && BareSafe(EnvSpec(d)) && QuoteSafe(EnvName(d)) && BareSafe(python)
    requires AllBareSafe(ListOf(d, "channels")) && AllBareSafe(ListOf(d, "install_args"))
    requires AllBareSafe(ListOf(d, "deps"))
    requires "spec" in d ==> forall i :: 0 <= i < |d["spec"].text| ==> Plain(d["spec"].text[i])
    ensures Split(InstallCommand(exe, python, d).value)
         == Success([exe, "install", "--quiet", "--yes", EnvSpec(d), EnvName(d)] + InstallTail(python, d))
  {
    var tail := InstallTail(python, d);
    assert AllBareSafe(tail) by {
      InstallTailSafe(python, d);
    }
    InstallHeadSplits(exe, d, tail);
    InstallCommandLine(exe, python, d);
  }

  lemma InstallHeadSplits(exe: string, d: map<string, Value>, tail: seq<string>)
    requires WellFormedConda(d)
    requires QuoteSafe(exe) && BareSafe(EnvSpec(d)) && QuoteSafe(EnvName(d)) && AllBareSafe(tail)
    ensures Split(CommandLine(InstallHead(exe, d)) + Spaced(tail))
         == Success([exe, "install", "--quiet", "--yes", EnvSpec(d), EnvName(d)] + tail)
  {
    InstallHeadWords(exe, d);
    SplitHeadTail(InstallHead(exe, d), tail);
  }

  lemma InstallHeadWords(exe: string, d: map<string, Value>)
    requires WellFormedConda(d)
    requires QuoteSafe(exe) && BareSafe(EnvSpec(d)) && QuoteSafe(EnvName(d))
    ensures AllSafe(InstallHead(exe, d))
    ensures TextsOf(InstallHead(exe, d)) == [exe, "install", "--quiet", "--yes", EnvSpec(d), EnvName(d)]
  {
    FixedWordsSafe();
  }

  /** A safe head followed by safe bare words reads back as the head's texts and the words. */
  lemma SplitHeadTail(head: seq<Arg>, tail: seq<string>)
    requires head != [] && AllSafe(head) && AllBareSafe(tail)
    ensures Split(CommandLine(head) + Spaced(tail)) == Success(TextsOf(head) + tail)
  {
    RenderAllBares(tail);
    CommandLineExtend(head, Bares(tail));
    AllSafeBares(tail);
    AllSafeConcat(head, Bares(tail));
    SplitCommandLine(head + Bares(tail));
    TextsOfConcat(head, Bares(tail));
    TextsOfBares(tail);
  }

  lemma {:induction false} ChannelWordsSafe(cs: seq<string>)
    requires AllBareSafe(cs)
    ensures AllBareSafe(ChannelWords(cs))
  {
    if cs != [] {
      ChannelWordsSafe(cs[1..]);
      FixedWordsSafe();
      var rest := ChannelWords(cs[1..]);
      assert ChannelWords(cs) == ["--channel", cs[0]] + rest;
      assert forall i :: 2 <= i < |rest| + 2 ==> ChannelWords(cs)[i] == rest[i - 2];
    }
  }

  lemma InstallTailSafe(python: string, d: map<string, Value>)
    requires WellFormedConda(d) && BareSafe(python)
    requires AllBareSafe(ListOf(d, "channels")) && AllBareSafe(ListOf(d, "install_args"))
    requires AllBareSafe(ListOf(d, "deps"))
    requires "spec" in d ==> forall i :: 0 <= i < |d["spec"].text| ==> Plain(d["spec"].text[i])
    ensures AllBareSafe(InstallTail(python, d))
  {
    ChannelWordsSafe(ListOf(d, "channels"));
    if "spec" in d {
      assert SpecOf(d) == Some(d["spec"].text);
      var w := "--file=" + d["spec"].text;
      assert forall i :: 7 <= i < |w| ==> w[i] == d["spec"].text[i - 7];
      assert BareSafe(w);
    }
    var a := ChannelWords(ListOf(d, "channels"));
    var b := ListOf(d, "install_args");
    var c := ListOf(d, "deps");
    var e := SpecWords(SpecOf(d));
    WordsSafeConcat(a, b);
    WordsSafeConcat(a + b, [python]);
    WordsSafeConcat(a + b + [python], c);
    WordsSafeConcat(a + b + [python] + c, e);
  }

  lemma WordsSafeConcat(a: seq<string>, b: seq<string>)
    requires AllBareSafe(a) && AllBareSafe(b)
    ensures AllBareSafe(a + b)
  {
    forall i | 0 <= i < |a + b| ensures BareSafe((a + b)[i]) {
      if i < |a| { assert (a + b)[i] == a[i]; } else { assert (a + b)[i] == b[i - |a|]; }
    }
  }

  // ------------------------------------------------------------ env create

  /** The environment file as rewritten, and the command that creates the environment from it. */
  datatype EnvCreation = EnvCreation(envFile: map<string, Yaml>, creation: Creation)

  /** The words `'exe' env create --file '<tmp>' --quiet --force`. */
  function EnvCreateWords(exe: string, tmpName: string): seq<Arg>
  {
    [Quoted(exe), Bare("env"), Bare("create"), Bare("--file"), Quoted(tmpName), Bare("--quiet"), Bare("--force")]
  }

  /** `_generate_env_create_command`: the environment file at the table's
      `env_path` (looked up in `documents`) gets the python pin appended to its
      dependency list and is written to the temporary file `tmpName`, which the
      tear-down removes. A missing `env_path` or `dependencies` entry is a
      `KeyError`; a dependency entry that is not a list cannot be appended to. */
  function EnvCreateCommand(exe: string, python: string, d: map<string, Value>,
                            documents: map<string, Yaml>, tmpName: string): (r: Result<EnvCreation>)
    ensures "env_path" !in d ==> r == Failure(KeyError("env_path"))
    ensures "env_path" in d && !d["env_path"].Str? ==> r == Failure(TypeError)
    ensures "env_path" in d && d["env_path"].Str? ==>
      var p := d["env_path"].text;
      && (p !in documents ==> r == Failure(OsError(p)))
      && (p in documents && !documents[p].Mapping? ==> r == Failure(TypeError))
      && (p in documents && documents[p].Mapping? && "dependencies" !in documents[p].entries ==>
            r == Failure(KeyError("dependencies")))
      && (p in documents && documents[p].Mapping? && "dependencies" in documents[p].entries ==>
            (!documents[p].entries["dependencies"].Sequence? ==> r == Failure(AttributeError("append"))))
    ensures r.Success? <==>
      && "env_path" in d && d["env_path"].Str? && d["env_path"].text in documents
      && documents[d["env_path"].text].Mapping?
      && "dependencies" in documents[d["env_path"].text].entries
      && documents[d["env_path"].text].entries["dependencies"].Sequence?
    ensures r.Success? ==>
      var loaded := documents[d["env_path"].text].entries;
      && r.value.envFile.Keys == loaded.Keys
      && r.value.envFile["dependencies"] == Sequence(loaded["dependencies"].items + [Scalar(python)])
      && (forall k :: k in loaded && k != "dependencies" ==> r.value.envFile[k] == loaded[k])
    ensures r.Success? ==> r.value.creation.tearDown == RemoveFile(tmpName)
  {
    if "env_path" !in d then Failure(KeyError("env_path"))
    else if !d["env_path"].Str? then Failure(TypeError)
    else
      var envPath := d["env_path"].text;
      if envPath !in documents then Failure(OsError(envPath))
      else if !documents[envPath].Mapping? then Failure(TypeError)
      else
        var loaded := documents[envPath].entries;
        if "dependencies" !in loaded then Failure(KeyError("dependencies"))
        else if !loaded["dependencies"].Sequence? then Failure(AttributeError("append"))
        else
          var pinned := Sequence(loaded["dependencies"].items + [Scalar(python)]);
          var command := CommandLine(EnvCreateWords(exe, tmpName));
          Success(EnvCreation(loaded["dependencies" := pinned], Creation(command, RemoveFile(tmpName))))
  }

  /** The env-create command reads back as `exe env create --file <tmp> --quiet --force`. */
  lemma EnvCreateCommandSplits(exe: string, python: string, d: map<string, Value>,
                               documents: map<string, Yaml>, tmpName: string)
    requires EnvCreateCommand(exe, python, d, documents, tmpName).Success?
    requires QuoteSafe(exe) && QuoteSafe(tmpName)
    ensures Split(EnvCreateCommand(exe, python, d, documents, tmpName).value.creation.command)
         == Success([exe, "env", "create", "--file", tmpName, "--quiet", "--force"])
  {
    EnvCreateWordsSplit(exe, tmpName);
  }

  lemma EnvCreateWordsSplit(exe: string, tmpName: string)
    requires QuoteSafe(exe) && QuoteSafe(tmpName)
    ensures Split(CommandLine(EnvCreateWords(exe, tmpName)))
         == Success([exe, "env", "create", "--file", tmpName, "--quiet", "--force"])
  {
    EnvCreateWordsSafe(exe, tmpName);
    SplitCommandLine(EnvCreateWords(exe, tmpName));
  }

  lemma EnvCreateWordsSafe(exe: string, tmpName: string)
    requires QuoteSafe(exe) && QuoteSafe(tmpName)
    ensures AllSafe(EnvCreateWords(exe, tmpName))
    ensures TextsOf(EnvCreateWords(exe, tmpName)) == [exe, "env", "create", "--file", tmpName, "--quiet", "--force"]
  {
    FixedWordsSafe();
  }

  // ------------------------------------------------------- run and listing

  /** The `conda run` prefix the executor puts before every command. */
  function RunPrefix(exe: string, d: map<string, Value>): string
    requires WellFormedConda(d)
  {
    CommandLine([Quoted(exe), Bare("run"), Bare(EnvSpec(d)), Quoted(EnvName(d)), Bare("--live-stream")])
  }

  /** `get_conda_command_prefix` reads back as `exe run <env_spec> <env> --live-stream`. */
  lemma RunPrefixSplits(exe: string, d: map<string, Value>)
    requires WellFormedConda(d)
    requires QuoteSafe(exe) && BareSafe(EnvSpec(d)) && QuoteSafe(EnvName(d))
    ensures Split(RunPrefix(exe, d)) == Success([exe, "run", EnvSpec(d), EnvName(d), "--live-stream"])
  {
    var words := [Quoted(exe), Bare("run"), Bare(EnvSpec(d)), Quoted(EnvName(d)), Bare("--live-stream")];
    FixedWordsSafe();
    assert AllSafe(words);
    SplitCommandLine(words);
    assert TextsOf(words) == [exe, "run", EnvSpec(d), EnvName(d), "--live-stream"];
  }

  /** The command that lists the known conda environments as JSON. */
  function ListCommand(exe: string): string
  {
    CommandLine([Quoted(exe), Bare("env"), Bare("list"), Bare("--json")])
  }

  lemma ListCommandSplits(exe: string)
    requires QuoteSafe(exe)
    ensures Split(ListCommand(exe)) == Success([exe, "env", "list", "--json"])
  {
    var words := [Quoted(exe), Bare("env"), Bare("list"), Bare("--json")];
    FixedWordsSafe();
    assert AllSafe(words);
    SplitCommandLine(words);
    assert TextsOf(words) == [exe, "env", "list", "--json"];
  }
}

=== FILE: discovery.dfy ===
/** `find_conda`: where the plugin looks for the conda executable. */
module Discovery {
  import opened Outcomes

  /** How the `conda -h` probe ended: with an exit status, or not started at all. */
  datatype Probe = Exited(code: int) | LaunchFailed

  /** What the lookup reads from the machine: the process environment, the
      result of `shutil.which("conda")`, path resolution, and the outcome of
      running the probe on a path. */
  datatype Machine = Machine(
    environ: map<string, string>,
    which: Option<string>,
    resolve: string -> string,
    probe: string -> Probe)

  /** `os.environ.get(name)`. */
  function EnvVar(m: Machine, name: string): Option<string>
  {
    if name in m.environ then Some(m.environ[name]) else None
  }

  /** The search path has a `conda` whose `-h` probe exits with a failure status. */
  predicate ProbeFails(m: Machine)
  {
    Given(m.which) && m.probe(m.resolve(m.which.value)).Exited? && m.probe(m.resolve(m.which.value)).code != 0
  }

  const NotFound: Result<string> := Failure(Fail("Failed to find 'conda' executable."))

  /** `find_conda` as written: `_CONDA_EXE` first, then `CONDA_EXE`, each
      trusted without a probe; then `which("conda")`, probed with `-h`. The
      probe runs without `check=True`, so its exit status is never looked
      at and the `CalledProcessError` handler cannot fire; a probe that
      cannot start raises `OSError`, which is not caught. */
  function FindCondaAsWritten(m: Machine): (r: Result<string>)
    ensures Given(EnvVar(m, "_CONDA_EXE")) ==> r == Success(m.resolve(EnvVar(m, "_CONDA_EXE").value))
    ensures !Given(EnvVar(m, "_CONDA_EXE")) && Given(EnvVar(m, "CONDA_EXE")) ==>
      r == Success(m.resolve(EnvVar(m, "CONDA_EXE").value))
    ensures r == NotFound <==>
      !Given(EnvVar(m, "_CONDA_EXE")) && !Given(EnvVar(m, "CONDA_EXE")) && !Given(m.which)
    ensures !Given(EnvVar(m, "_CONDA_EXE")) && !Given(EnvVar(m, "CONDA_EXE")) && Given(m.which) ==>
      r == (if m.probe(m.resolve(m.which.value)).LaunchFailed? then Failure(OsError(m.resolve(m.which.value)))
            else Success(m.resolve(m.which.value)))
  {
    var first := EnvVar(m, "_CONDA_EXE");
    if Given(first) then Success(m.resolve(first.value))
    else
      var second := EnvVar(m, "CONDA_EXE");
      if Given(second) then Success(m.resolve(second.value))
      else if Given(m.which) then
        var exe := m.resolve(m.which.value);
        match m.probe(exe)
        case LaunchFailed => Failure(OsError(exe))
        case Exited(_) => Success(exe)
      else NotFound
  }

  /** `find_conda` as its handler shows it was meant to behave: a `which`
      result whose probe exits with a non-zero status is rejected. */
  function FindConda(m: Machine): (r: Result<string>)
    ensures Given(EnvVar(m, "_CONDA_EXE")) ==> r == Success(m.resolve(EnvVar(m, "_CONDA_EXE").value))
    ensures !Given(EnvVar(m, "_CONDA_EXE")) && Given(EnvVar(m, "CONDA_EXE")) ==>
      r == Success(m.resolve(EnvVar(m, "CONDA_EXE").value))
    ensures r == NotFound <==>
      && !Given(EnvVar(m, "_CONDA_EXE")) && !Given(EnvVar(m, "CONDA_EXE"))
      && (!Given(m.which) || ProbeFails(m))
    ensures !Given(EnvVar(m, "_CONDA_EXE")) && !Given(EnvVar(m, "CONDA_EXE")) && Given(m.which) ==>
      r == (if m.probe(m.resolve(m.which.value)).LaunchFailed? then Failure(OsError(m.resolve(m.which.value)))
            else if m.probe(m.resolve(m.which.value)).code == 0 then Success(m.resolve(m.which.value))
            else NotFound)
  {
    var first := EnvVar(m, "_CONDA_EXE");
    if Given(first) then Success(m.resolve(first.value))
    else
      var second := EnvVar(m, "CONDA_EXE");
      if Given(second) then Success(m.resolve(second.value))
      else if Given(m.which) then
        var exe := m.resolve(m.which.value);
        match m.probe(exe)
        case LaunchFailed => Failure(OsError(exe))
        case Exited(code) => if code == 0 then Success(exe) else NotFound
      else NotFound
  }

  /** Whatever the intended lookup accepts, the written one accepts too, and
      the two differ only on a `which` result whose probe fails. */
  lemma FindCondaAgrees(m: Machine)
    ensures FindConda(m).Success? ==> FindCondaAsWritten(m) == FindConda(m)
    ensures FindConda(m) != FindCondaAsWritten(m) <==>
      !Given(EnvVar(m, "_CONDA_EXE")) && !Given(EnvVar(m, "CONDA_EXE")) && ProbeFails(m)
  {
  }

  /** A `conda` on the search path whose `-h` exits with status 1 is accepted
      as written, and rejected by the intended lookup. */
  lemma FindCondaAcceptsFailingProbe(resolve: string -> string)
    ensures var m := Machine(map[], Some("conda"), resolve, (p: string) => Exited(1));
      && FindCondaAsWritten(m) == Success(resolve("conda"))
      && FindConda(m) == NotFound
  {
    var m := Machine(map[], Some("conda"), resolve, (p: string) => Exited(1));
    assert EnvVar(m, "_CONDA_EXE") == None;
    assert EnvVar(m, "CONDA_EXE") == None;
  }
}

=== FILE: env_activator.dfy ===
/** `env_activator.py`: a popen replacement that runs every command inside
    the activated conda environment, and the context manager that installs
    it for the duration of a block. */
module EnvActivator {
  import opened Text

  /** The parts of the environment the wrappers read. */
  datatype Venv = Venv(condaExe: string, envDir: string)

  datatype Platform = Posix | Windows

  // --------------------------------------------------------------- windows

  /** Windows `_wrap_cmd_args`: `conda.bat activate <envdir>` split on
      whitespace, then `&&`, then the command. */
  function WrapWindows(v: Venv, args: seq<string>): seq<string>
  {
    Fields("conda.bat activate " + v.envDir) + ["&&"] + args
  }

  /** The activation words are `conda.bat`, `activate` and the whitespace-separated
      pieces of the environment directory. */
  lemma ActivationFields(envDir: string)
    ensures Fields("conda.bat activate " + envDir) == ["conda.bat", "activate"] + Fields(envDir)
  {
    var rest := "activate" + [' '] + envDir;
    ActivationText(envDir);
    assert Printable("conda.bat") && Printable("activate");
    PrintableNoWhitespace("conda.bat");
    PrintableNoWhitespace("activate");
    FieldsOfWord("conda.bat", ' ', rest);
    FieldsOfWord("activate", ' ', envDir);
  }

  lemma ActivationText(envDir: string)
    ensures "conda.bat activate " + envDir == "conda.bat" + [' '] + ("activate" + [' '] + envDir)
  {
    assert "conda.bat activate " == "conda.bat" + [' '] + "activate" + [' '];
  }

  /** The wrapped Windows command starts with `conda.bat activate` and the
      directory's pieces, and ends with `&&` and the command, unchanged. */
  lemma WrapWindowsShape(v: Venv, args: seq<string>)
    ensures var r := WrapWindows(v, args);
      var n := |Fields(v.envDir)|;
      && |r| == 3 + n + |args|
      && r[..2] == ["conda.bat", "activate"]
      && r[2..2 + n] == Fields(v.envDir)
      && r[2 + n] == "&&"
      && r[3 + n..] == args
  {
    ActivationFields(v.envDir);
    var r := WrapWindows(v, args);
    var n := |Fields(v.envDir)|;
    assert r == ["conda.bat", "activate"] + Fields(v.envDir) + ["&&"] + args;
  }

  // ----------------------------------------------------------------- posix

  /** The script the POSIX wrapper writes, and where. */
  datatype Script = Script(path: string, text: string)

  /** The first line of the script: activate the environment in the shell. */
  function ActivateLine(v: Venv): string
  {
    "eval $(" + v.condaExe + " shell.posix activate " + v.envDir + ")"
  }

  /** POSIX `_wrap_cmd_args`: the activation line, a newline, and the
      command's words, each passed through `quote` (`pipes.quote`), joined by
      blanks, written to the temporary file `tmpPath`, which `/bin/sh` runs. */
  function WrapPosix(v: Venv, tmpPath: string, quote: string -> string, args: seq<string>): (r: (seq<string>, Script))
    ensures r.0 == ["/bin/sh", r.1.path]
    ensures r.1.path == tmpPath
  {
    var quoted := seq(|args|, i requires 0 <= i < |args| => quote(args[i]));
    (["/bin/sh", tmpPath], Script(tmpPath, ActivateLine(v) + "\n" + JoinWords(quoted)))
  }

  /** The text up to the first newline. */
  function FirstLine(s: string): (r: string)
    ensures |r| <= |s| && r == s[..|r|]
    ensures forall i :: 0 <= i < |r| ==> r[i] != '\n'
    ensures |r| < |s| ==> s[|r|] == '\n'
  {
    if s == [] || s[0] == '\n' then []
    else [s[0]] + FirstLine(s[1..])
  }

  /** When the executable path and the directory hold no newline, the script's
      first line is the activation line and the rest is the quoted command. */
  lemma PosixScriptLines(v: Venv, tmpPath: string, quote: string -> string, args: seq<string>)
    requires forall i :: 0 <= i < |v.condaExe| ==> v.condaExe[i] != '\n'
    requires forall i :: 0 <= i < |v.envDir| ==> v.envDir[i] != '\n'
    ensures var text := WrapPosix(v, tmpPath, quote, args).1.text;
      && FirstLine(text) == ActivateLine(v)
      && text[|ActivateLine(v)| + 1..] == JoinWords(seq(|args|, i requires 0 <= i < |args| => quote(args[i])))
  {
    var line := ActivateLine(v);
    var quoted := seq(|args|, i requires 0 <= i < |args| => quote(args[i]));
    var text := line + "\n" + JoinWords(quoted);
    assert forall i :: 0 <= i < |line| ==> line[i] != '\n' by {
      var a := "eval $(" + v.condaExe;
      var b := a + " shell.posix activate " + v.envDir;
      assert forall i :: 0 <= i < |a| ==> a[i] != '\n';
      assert forall i :: 0 <= i < |b| ==> b[i] != '\n';
    }
    FirstLineOf(line, JoinWords(quoted));
    assert text[|line| + 1..] == JoinWords(quoted);
  }

  lemma {:induction false} FirstLineOf(line: string, rest: string)
    requires forall i :: 0 <= i < |line| ==> line[i] != '\n'
    ensures FirstLine(line + "\n" + rest) == line
  {
    var s := line + "\n" + rest;
    if line == [] {
      assert s[0] == '\n';
    } else {
      assert s[0] == line[0];
      assert s[1..] == line[1..] + "\n" + rest;
      FirstLineOf(line[1..], rest);
      assert [line[0]] + line[1..] == line;
    }
  }

  // -------------------------------------------------------------- popen

  /** The wrapping `_wrap_cmd_args` does on each platform. */
  function Wrap(p: Platform, v: Venv, tmpPath: string, quote: string -> string, args: seq<string>): seq<string>
  {
    match p
    case Windows => WrapWindows(v, args)
    case Posix => WrapPosix(v, tmpPath, quote, args).0
  }

  /** A popen callable: the host's own, or one wrapped for an environment. */
  datatype Popen = Original(id: nat) | Activated(venv: Venv, inner: Popen)

  /** The call the host's popen ends up receiving. */
  datatype Call<K> = Call(target: nat, args: seq<string>, kwargs: K)

  /** `PopenInActivatedEnvBase.__call__`, followed down to the host's popen:
      each wrapper wraps the arguments and passes the keyword arguments on.
      `tmpNames(i)` is the fresh temporary name the wrapper `i` levels down
      draws for its script. */
  function Invoke<K>(p: Platform, popen: Popen, tmpNames: nat -> string, quote: string -> string,
                     args: seq<string>, kwargs: K): (c: Call<K>)
    ensures c.kwargs == kwargs
    ensures popen.Original? ==> c == Call(popen.id, args, kwargs)
  {
    match popen
    case Original(id) => Call(id, args, kwargs)
    case Activated(v, inner) =>
      Invoke(p, inner, (i: nat) => tmpNames(i + 1), quote, Wrap(p, v, tmpNames(0), quote, args), kwargs)
  }

  /** A wrapper around the host's popen hands it the wrapped arguments and
      the keyword arguments unchanged. */
  lemma InvokeWrapped<K>(p: Platform, v: Venv, id: nat, tmpNames: nat -> string, quote: string -> string,
                         args: seq<string>, kwargs: K)
    ensures Invoke(p, Activated(v, Original(id)), tmpNames, quote, args, kwargs)
         == Call(id, Wrap(p, v, tmpNames(0), quote, args), kwargs)
  {
  }

  /** On POSIX the host's popen only ever sees `/bin/sh` and the script. */
  lemma InvokePosix<K>(v: Venv, id: nat, tmpNames: nat -> string, quote: string -> string,
                       args: seq<string>, kwargs: K)
    ensures Invoke(Posix, Activated(v, Original(id)), tmpNames, quote, args, kwargs).args == ["/bin/sh", tmpNames(0)]
  {
  }

  /** Two nested wrappers each draw their own temporary name: the outer one
      wraps first with `tmpNames(0)`, the inner one wraps that result with
      `tmpNames(1)`, and on POSIX the host's popen runs the inner script. */
  lemma InvokeNested<K>(p: Platform, v0: Venv, v1: Venv, id: nat, tmpNames: nat -> string,
                        quote: string -> string, args: seq<string>, kwargs: K)
    ensures Invoke(p, Activated(v0, Activated(v1, Original(id))), tmpNames, quote, args, kwargs)
         == Call(id, Wrap(p, v1, tmpNames(1), quote, Wrap(p, v0, tmpNames(0), quote, args)), kwargs)
    ensures p.Posix? ==>
      Invoke(p, Activated(v0, Activated(v1, Original(id))), tmpNames, quote, args, kwargs).args
        == ["/bin/sh", tmpNames(1)]
  {
  }

  // -------------------------------------------------------- activate_env

  /** The two popen slots `activate_env` may replace: the environment's
      `popen`, and the action's `via_popen` when an action is given. */
  datatype Slots = Slots(venvPopen: Popen, viaPopen: Popen)

  /** The slot `activate_env` uses: the action's when there is one. */
  function Slot(s: Slots, hasAction: bool): Popen
  {
    if hasAction then s.viaPopen else s.venvPopen
  }

  function SetSlot(s: Slots, hasAction: bool, p: Popen): (r: Slots)
    ensures Slot(r, hasAction) == p
    ensures Slot(r, !hasAction) == Slot(s, !hasAction)
  {
    if hasAction then s.(viaPopen := p) else s.(venvPopen := p)
  }

  /** Entering the block: the chosen slot's popen is wrapped for `v`; the
      original is kept for the exit. */
  function Enter(v: Venv, s: Slots, hasAction: bool): (r: (Slots, Popen))
    ensures r.1 == Slot(s, hasAction)
    ensures Slot(r.0, hasAction) == Activated(v, Slot(s, hasAction))
    ensures Slot(r.0, !hasAction) == Slot(s, !hasAction)
  {
    var initial := Slot(s, hasAction);
    (SetSlot(s, hasAction, Activated(v, initial)), initial)
  }

  /** Leaving the block normally: the kept popen goes back into the slot. */
  function Exit(s: Slots, hasAction: bool, initial: Popen): Slots
  {
    SetSlot(s, hasAction, initial)
  }

  /** `activate_env` around a block: the slots after the block. The restore
      is not in a `finally`, so a block that raises leaves the wrapper in place. */
  function ActivateEnv(v: Venv, s: Slots, hasAction: bool, raised: bool): (r: Slots)
  {
    var (inside, initial) := Enter(v, s, hasAction);
    if raised then inside else Exit(inside, hasAction, initial)
  }

  /** A block that ends normally leaves both slots as they were. */
  lemma ActivateEnvRestores(v: Venv, s: Slots, hasAction: bool)
    ensures ActivateEnv(v, s, hasAction, false) == s
  {
    var r := ActivateEnv(v, s, hasAction, false);
    assert Slot(r, hasAction) == Slot(s, hasAction);
    assert Slot(r, !hasAction) == Slot(s, !hasAction);
  }

  /** A block that raises leaves the chosen slot wrapped. */
  lemma ActivateEnvRaised(v: Venv, s: Slots, hasAction: bool)
    ensures Slot(ActivateEnv(v, s, hasAction, true), hasAction) == Activated(v, Slot(s, hasAction))
  {
  }

  /** Inside the block, a call through the chosen slot reaches the original
      popen with the arguments wrapped for the environment. */
  lemma ActivatedCalls<K>(p: Platform, v: Venv, s: Slots, hasAction: bool, id: nat, tmpNames: nat -> string,
                          quote: string -> string, args: seq<string>, kwargs: K)
    requires Slot(s, hasAction) == Original(id)
    ensures Invoke(p, Slot(Enter(v, s, hasAction).0, hasAction), tmpNames, quote, args, kwargs)
         == Call(id, Wrap(p, v, tmpNames(0), quote, args), kwargs)
  {
  }
}

=== FILE: filtered_info.dfy ===
/** `FilteredInfo.compare`: the value handed to the host's cache comparison,
    with the configured keys dropped from a copy of it. */
module FilteredInfo {
  import opened Outcomes

  /** The value being compared: a dictionary, a list (which has `copy` but
      whose `pop` takes no default), or anything without a `copy` method. */
  datatype Payload<V> = Dict(entries: map<string, V>) | List(items: seq<V>) | Atom(value: V)

  /** The filter settings: the keys to drop, and the one section to drop them in. */
  datatype Filter = Filter(filterKeys: Option<seq<string>>, filterSection: Option<string>)

  function KeySet(keys: seq<string>): set<string>
  {
    set i | 0 <= i < |keys| :: keys[i]
  }

  /** `for fkey in keys: value.pop(fkey, None)` on a dictionary. */
  function PopEach<V>(m: map<string, V>, keys: seq<string>): (r: map<string, V>)
    ensures r.Keys == m.Keys - KeySet(keys)
    ensures forall k :: k in r ==> r[k] == m[k]
    decreases |keys|
  {
    if keys == [] then m
    else
      var rest := PopEach(m - {keys[0]}, keys[1..]);
      assert KeySet(keys) == {keys[0]} + KeySet(keys[1..]) by {
        forall k | k in KeySet(keys) ensures k in {keys[0]} + KeySet(keys[1..]) {
          var i :| 0 <= i < |keys| && keys[i] == k;
          if i > 0 { assert keys[1..][i - 1] == k; }
        }
        forall k | k in KeySet(keys[1..]) ensures k in KeySet(keys) {
          var i :| 0 <= i < |keys[1..]| && keys[1..][i] == k;
          assert keys[i + 1] == k;
        }
      }
      rest
  }

  /** The filter applies to this section: no section was configured, or it is this one. */
  predicate Applies(f: Filter, section: string)
  {
    f.filterSection.None? || f.filterSection.value == section
  }

  /** The value `compare` passes on to the host. On a dictionary the filter
      keys are popped from a copy; a list with filter keys to pop raises
      `TypeError`; a value with no `copy` passes through. */
  function Filtered<V>(f: Filter, value: Payload<V>, section: string): (r: Result<Payload<V>>)
    ensures !Applies(f, section) ==> r == Success(value)
    ensures value.Dict? ==> r.Success? && r.value.Dict?
    ensures value.Dict? && Applies(f, section) ==>
      && r.value.entries.Keys == value.entries.Keys - KeySet(ListOrEmpty(f.filterKeys))
      && forall k :: k in r.value.entries ==> r.value.entries[k] == value.entries[k]
    ensures r.Failure? <==> Applies(f, section) && value.List? && ListOrEmpty(f.filterKeys) != []
    ensures r.Failure? ==> r.error == TypeError
    ensures Applies(f, section) && (value.Atom? || (value.List? && ListOrEmpty(f.filterKeys) == [])) ==>
      r == Success(value)
  {
    if Applies(f, section) then
      match value
      case Dict(m) => Success(Dict(PopEach(m, ListOrEmpty(f.filterKeys))))
      case List(_) => if ListOrEmpty(f.filterKeys) == [] then Success(value) else Failure(TypeError)
      case Atom(_) => Success(value)
    else Success(value)
  }

  /** Without filter keys (`None` as much as an empty list) nothing changes. */
  lemma FilteredWithoutKeys<V>(f: Filter, value: Payload<V>, section: string)
    requires f.filterKeys.None? || f.filterKeys == Some([])
    ensures Filtered(f, value, section) == Success(value)
  {
    if value.Dict? && Applies(f, section) {
      assert KeySet([]) == {};
      assert Filtered(f, value, section).value.entries == value.entries;
    }
  }

  /** A key not among the filter keys keeps its value, and no key is added. */
  lemma FilteredKeepsOthers<V>(f: Filter, m: map<string, V>, section: string, k: string)
    requires k in m && k !in ListOrEmpty(f.filterKeys)
    ensures var r := Filtered(f, Dict(m), section);
      && r.Success? && k in r.value.entries && r.value.entries[k] == m[k]
      && r.value.entries.Keys <= m.Keys
  {
    assert k !in KeySet(ListOrEmpty(f.filterKeys));
  }

  /** Filtering twice gives what filtering once gives. */
  lemma FilteredIdempotent<V>(f: Filter, value: Payload<V>, section: string)
    requires Filtered(f, value, section).Success?
    ensures Filtered(f, Filtered(f, value, section).value, section) == Filtered(f, value, section)
  {
    var once := Filtered(f, value, section).value;
    if value.Dict? && Applies(f, section) {
      var twice := Filtered(f, once, section).value;
      assert twice.entries == once.entries;
    }
  }

  /** Filtering keys that are absent from a dictionary changes nothing and raises nothing. */
  lemma FilteredAbsentKeys<V>(f: Filter, m: map<string, V>, section: string)
    requires forall i :: 0 <= i < |ListOrEmpty(f.filterKeys)| ==> ListOrEmpty(f.filterKeys)[i] !in m
    ensures Filtered(f, Dict(m), section) == Success(Dict(m))
  {
    if Applies(f, section) {
      var r := Filtered(f, Dict(m), section).value;
      assert r.entries == m;
    }
  }
}

=== FILE: outcomes.dfy ===
/** Failure-carrying datatypes shared by every module of the model, and the
    Python exceptions the plugin lets escape, as data. */
module Outcomes {

  datatype Option<+T> = None | Some(value: T)

  datatype Result<+R> = Success(value: R) | Failure(error: Error) {

    predicate IsFailure()
    {
      Failure?
    }

    function PropagateFailure<U>(): Result<U>
      requires Failure?
    {
      Failure(error)
    }

    function Extract(): R
      requires Success?
    {
      value
    }
  }

  /** The exceptions the modelled code raises or lets propagate.
      `Fail` is the host framework's failure exception; the others are the
      Python built-in exceptions an unchecked lookup, `shlex.split` or a
      subprocess launch can raise. */
  datatype Error =
    | Fail(message: string)
    | KeyError(key: string)
    | ValueError(message: string)
    | TypeError
    | AttributeError(name: string)
    | OsError(path: string)

  /** Python truthiness of an optional string: set and non-empty. */
  predicate Given(s: Option<string>)
  {
    s.Some? && s.value != ""
  }

  /** Python truthiness of an optional list: set and non-empty. */
  predicate GivenList<T>(xs: Option<seq<T>>)
  {
    xs.Some? && xs.value != []
  }

  /** The list an optional list stands for (`x or []`). */
  function ListOrEmpty<T>(xs: Option<seq<T>>): seq<T>
  {
    if xs.Some? then xs.value else []
  }
}

=== FILE: runner.dfy ===
/** `CondaEnvRunner`'s own steps: creating the environment, making sure it
    exists before use, and routing every command through `conda run`. */
module Runner {
  import opened Outcomes
  import opened Shlex
  import opened CondaCache
  import opened Commands
  import opened Discovery
  import opened PythonVersion

  // ------------------------------------------------------------- creating

  /** One side effect of creating the environment. */
  datatype Step =
    | WriteEnvFile(path: string, contents: map<string, Yaml>)
    | Run(argv: seq<string>)
    | Remove(path: string)

  /** The side effects performed, in order, and how the whole ended. */
  datatype Trace = Trace(steps: seq<Step>, outcome: Result<()>)

  /** What the rest of the world answers while the environment is created:
      the name of the temporary file, the host's
      `version_dot`, the exit status of each program run, and the text of
      the `CalledProcessError` a failing run raises. */
  datatype World = World(
    tmpName: string,
    versionDot: string,
    status: seq<string> -> int,
    describe: (seq<string>, int) -> string)

  /** The argument lists of the programs run, in order. */
  function Runs(steps: seq<Step>): (r: seq<seq<string>>)
    ensures |r| <= |steps|
  {
    if steps == [] then []
    else (if steps[0].Run? then [steps[0].argv] else []) + Runs(steps[1..])
  }

  lemma {:induction false} RunsConcat(a: seq<Step>, b: seq<Step>)
    ensures Runs(a + b) == Runs(a) + Runs(b)
  {
    if a == [] {
      assert a + b == b;
    } else {
      assert (a + b)[0] == a[0];
      assert (a + b)[1..] == a[1..] + b;
      RunsConcat(a[1..], b);
    }
  }

  /** The clean-up `tear_down()` performs. */
  function CleanupSteps(t: TearDown): seq<Step>
  {
    match t
    case NoCleanup => []
    case RemoveFile(p) => [Remove(p)]
  }

  function CreateFailed(envDir: string, detail: string): Error
  {
    Fail("Failed to create '" + envDir + "' conda environment. Error: " + detail)
  }

  function InstallFailed(detail: string): Error
  {
    Fail("Failed to install dependencies in conda environment. Error: " + detail)
  }

  /** The `try`/`finally` around the create command: split it, run it, and
      run the tear-down whatever happened. A non-zero exit becomes `Fail`;
      a split error passes through unchanged. */
  function RunCreate(c: Creation, envDir: string, w: World): (t: Trace)
    ensures |t.steps| >= |CleanupSteps(c.tearDown)|
    ensures t.steps[|t.steps| - |CleanupSteps(c.tearDown)|..] == CleanupSteps(c.tearDown)
    ensures t.outcome.Success? <==> Split(c.command).Success? && w.status(Split(c.command).value) == 0
    ensures Runs(t.steps) == if Split(c.command).Success? then [Split(c.command).value] else []
    ensures Split(c.command).Failure? ==> t.outcome == Failure(Split(c.command).error)
    ensures Split(c.command).Success? && w.status(Split(c.command).value) != 0 ==>
      t.outcome == Failure(CreateFailed(envDir, w.describe(Split(c.command).value, w.status(Split(c.command).value))))
  {
    var cleanup := CleanupSteps(c.tearDown);
    assert Runs(cleanup) == [] by {
      assert cleanup == [] || (cleanup[0].Remove? && cleanup[1..] == []);
    }
    match Split(c.command)
    case Failure(e) => Trace(cleanup, Failure(e))
    case Success(argv) =>
      RunsConcat([Run(argv)], cleanup);
      assert Runs([Run(argv)]) == [argv] by {
        assert [Run(argv)][1..] == [];
      }
      var code := w.status(argv);
      var steps := [Run(argv)] + cleanup;
      assert steps[|steps| - |cleanup|..] == cleanup;
      if code != 0 then Trace(steps, Failure(CreateFailed(envDir, w.describe(argv, code))))
      else Trace(steps, Success(()))
  }

  /** The install step: nothing when there is no install command; otherwise
      split it and run it, a non-zero exit becoming `Fail`. */
  function RunInstall(command: Option<string>, w: World): (t: Trace)
    ensures command.None? ==> t == Trace([], Success(()))
    ensures command.Some? ==>
      Runs(t.steps) == (if Split(command.value).Success? then [Split(command.value).value] else [])
    ensures t.outcome.Success? <==>
      command.None? || (Split(command.value).Success? && w.status(Split(command.value).value) == 0)
    ensures command.Some? && Split(command.value).Failure? ==> t.outcome == Failure(Split(command.value).error)
    ensures command.Some? && Split(command.value).Success? && w.status(Split(command.value).value) != 0 ==>
      t.outcome == Failure(InstallFailed(w.describe(Split(command.value).value, w.status(Split(command.value).value))))
  {
    match command
    case None => Trace([], Success(()))
    case Some(line) =>
      match Split(line)
      case Failure(e) => Trace([], Failure(e))
      case Success(argv) =>
        assert Runs([Run(argv)]) == [argv] by {
          assert [Run(argv)][1..] == [];
        }
        var code := w.status(argv);
        if code != 0 then Trace([Run(argv)], Failure(InstallFailed(w.describe(argv, code))))
        else Trace([Run(argv)], Success(()))
  }

  /** The command chosen to create the environment, and the files written
      for it beforehand: the environment-file command with its pinned copy
      written out, or the plain create command. */
  function Prepare(exe: string, python: string, section: map<string, Value>, fromEnvFile: bool,
                   docs: map<string, Yaml>, w: World): (r: Result<(seq<Step>, Creation)>)
    requires WellFormedConda(section)
    ensures r.Success? ==> Runs(r.value.0) == []
    ensures !fromEnvFile ==> r == Success(([], CreateCommand(exe, python, section)))
    ensures fromEnvFile ==> (r.Success? <==> EnvCreateCommand(exe, python, section, docs, w.tmpName).Success?)
    ensures fromEnvFile && r.Failure? ==> r.error == EnvCreateCommand(exe, python, section, docs, w.tmpName).error
    ensures fromEnvFile && r.Success? ==>
      var ec := EnvCreateCommand(exe, python, section, docs, w.tmpName).value;
      r.value == ([WriteEnvFile(w.tmpName, ec.envFile)], ec.creation)
  {
    if fromEnvFile then
      match EnvCreateCommand(exe, python, section, docs, w.tmpName)
      case Failure(e) => Failure(e)
      case Success(ec) =>
        assert Runs([WriteEnvFile(w.tmpName, ec.envFile)]) == [] by {
          assert [WriteEnvFile(w.tmpName, ec.envFile)][1..] == [];
        }
        Success(([WriteEnvFile(w.tmpName, ec.envFile)], ec.creation))
    else Success(([], CreateCommand(exe, python, section)))
  }

  /** The files written, the create command inside its `try`/`finally`,
      and, only once that succeeded, the install command. */
  function CreateThenInstall(writes: seq<Step>, creation: Creation, install: Option<string>,
                             envDir: string, w: World): (t: Trace)
    requires Runs(writes) == []
    ensures |t.steps| >= |writes| && t.steps[..|writes|] == writes
    ensures forall s :: s in CleanupSteps(creation.tearDown) ==> s in t.steps
    ensures RunCreate(creation, envDir, w).outcome.Failure? ==> t.outcome == RunCreate(creation, envDir, w).outcome
    ensures RunCreate(creation, envDir, w).outcome.Success? ==> t.outcome == RunInstall(install, w).outcome
  {
    var created := RunCreate(creation, envDir, w);
    SuffixMembers(created.steps, CleanupSteps(creation.tearDown));
    if created.outcome.Failure? then
      Appended(writes, created.steps, []);
      Trace(writes + created.steps, created.outcome)
    else
      var installed := RunInstall(install, w);
      Appended(writes, created.steps, installed.steps);
      Trace(writes + created.steps + installed.steps, installed.outcome)
  }

  /** The programs run: the create command when it splits, then the
      install command when there is one, the create command succeeded, and
      it splits. */
  lemma CreateThenInstallRuns(writes: seq<Step>, creation: Creation, install: Option<string>,
                              envDir: string, w: World)
    requires Runs(writes) == []
    ensures Runs(CreateThenInstall(writes, creation, install, envDir, w).steps)
         == (if Split(creation.command).Success? then [Split(creation.command).value] else [])
          + (if RunCreate(creation, envDir, w).outcome.Success? && install.Some? && Split(install.value).Success?
             then [Split(install.value).value] else [])
  {
    var created := RunCreate(creation, envDir, w);
    RunsConcat(writes, created.steps);
    if created.outcome.Success? {
      var installed := RunInstall(install, w);
      RunsConcat(writes + created.steps, installed.steps);
    }
  }

  /** At most two programs run, the second only after the first exited 0;
      on success every program run exited 0. */
  lemma CreateThenInstallRunCount(writes: seq<Step>, creation: Creation, install: Option<string>,
                                  envDir: string, w: World)
    requires Runs(writes) == []
    ensures var t := CreateThenInstall(writes, creation, install, envDir, w);
      && |Runs(t.steps)| <= 2
      && (|Runs(t.steps)| == 2 ==> w.status(Runs(t.steps)[0]) == 0)
      && (t.outcome.Success? ==>
          && |Runs(t.steps)| == (if install.Some? then 2 else 1)
          && forall i :: 0 <= i < |Runs(t.steps)| ==> w.status(Runs(t.steps)[i]) == 0)
  {
    CreateThenInstallRuns(writes, creation, install, envDir, w);
  }

  /** Whatever follows, the first program run is the create command, once it splits. */
  lemma CreateThenInstallFirstRun(writes: seq<Step>, creation: Creation, install: Option<string>,
                                  envDir: string, w: World)
    requires Runs(writes) == [] && Split(creation.command).Success?
    ensures var runs := Runs(CreateThenInstall(writes, creation, install, envDir, w).steps);
      |runs| >= 1 && runs[0] == Split(creation.command).value
  {
    CreateThenInstallRuns(writes, creation, install, envDir, w);
  }

  lemma SuffixMembers<T>(s: seq<T>, suffix: seq<T>)
    requires |s| >= |suffix| && s[|s| - |suffix|..] == suffix
    ensures forall x :: x in suffix ==> x in s
  {
    forall x | x in suffix ensures x in s {
      var i :| 0 <= i < |suffix| && suffix[i] == x;
      assert s[|s| - |suffix| + i] == x;
    }
  }

  lemma Appended<T>(a: seq<T>, b: seq<T>, c: seq<T>)
    ensures (a + b + c)[..|a|] == a && (a + b)[..|a|] == a
    ensures forall x :: x in b ==> x in a + b + c && x in a + b
  {
    assert a + b + c == a + (b + c);
  }

  /** The part of `create_python_env` after the executable, the python pin
      and the "conda" table are known. `fromEnvFile` selects the
      environment-file command. The install step runs only once the create
      command has succeeded. */
  function CreateFlow(exe: string, python: string, section: map<string, Value>, fromEnvFile: bool,
                      envDir: string, docs: map<string, Yaml>, w: World): (t: Trace)
    requires WellFormedConda(section)
    ensures fromEnvFile ==> EnvCreateCommand(exe, python, section, docs, w.tmpName).Failure? ==>
      t == Trace([], Failure(EnvCreateCommand(exe, python, section, docs, w.tmpName).error))
    ensures |Runs(t.steps)| <= 2
    ensures |Runs(t.steps)| == 2 ==> w.status(Runs(t.steps)[0]) == 0
    ensures Prepare(exe, python, section, fromEnvFile, docs, w).Success? ==>
      var created := RunCreate(Prepare(exe, python, section, fromEnvFile, docs, w).value.1, envDir, w).outcome;
      && (created.Failure? ==> t.outcome == created)
      && (created.Success? ==> t.outcome == RunInstall(InstallCommand(exe, python, section), w).outcome)
  {
    match Prepare(exe, python, section, fromEnvFile, docs, w)
    case Failure(e) => Trace([], Failure(e))
    case Success((writes, creation)) =>
      CreateThenInstallRunCount(writes, creation, InstallCommand(exe, python, section), envDir, w);
      CreateThenInstall(writes, creation, InstallCommand(exe, python, section), envDir, w)
  }

  /** `create_python_env` with the dispatch the rest of the method relies
      on: the environment-file command exactly when the "conda" table was
      built from an environment file. */
  function CreatePythonEnv(cfg: Config, host: Host, m: Machine, w: World): (t: Trace)
    requires cfg.basePython != []
    ensures FindCondaAsWritten(m).Failure? ==> t == Trace([], Failure(FindCondaAsWritten(m).error))
    ensures FindCondaAsWritten(m).Success? && CondaSection(cfg, host).Failure? ==>
      t == Trace([], Failure(CondaSection(cfg, host).error))
    ensures FindCondaAsWritten(m).Success? && CondaSection(cfg, host).Success? ==>
      var exe, section := FindCondaAsWritten(m).value, CondaSection(cfg, host).value;
      var python := "python=" + EnvVersion(cfg.basePython, w.versionDot);
      var prepared := Prepare(exe, python, section, "env_path" in CondaSection(cfg, host).value, host.documents, w);
      && (prepared.Failure? ==> t == Trace([], Failure(prepared.error)))
      && (prepared.Success? ==>
          var created := RunCreate(prepared.value.1, cfg.envDir, w).outcome;
          && (created.Failure? ==> t.outcome == created)
          && (created.Success? ==> t.outcome == RunInstall(InstallCommand(exe, python, section), w).outcome))
    ensures |Runs(t.steps)| <= 2
    ensures |Runs(t.steps)| == 2 ==> w.status(Runs(t.steps)[0]) == 0
  {
    match FindCondaAsWritten(m)
    case Failure(e) => Trace([], Failure(e))
    case Success(exe) =>
      var python := "python=" + EnvVersion(cfg.basePython, w.versionDot);
      match CondaSection(cfg, host)
      case Failure(e) => Trace([], Failure(e))
      case Success(section) => CreateFlow(exe, python, section, "env_path" in section, cfg.envDir, host.documents, w)
  }

  /** `create_python_env` as written: the environment-file command whenever
      `conda_env` is set, even when a name chosen first left the table
      without an `env_path`. */
  function CreatePythonEnvAsWritten(cfg: Config, host: Host, m: Machine, w: World): (t: Trace)
    requires cfg.basePython != []
    ensures FindCondaAsWritten(m).Failure? ==> t == Trace([], Failure(FindCondaAsWritten(m).error))
    ensures FindCondaAsWritten(m).Success? && CondaSection(cfg, host).Failure? ==>
      t == Trace([], Failure(CondaSection(cfg, host).error))
    ensures FindCondaAsWritten(m).Success? && CondaSection(cfg, host).Success? ==>
      var exe, section := FindCondaAsWritten(m).value, CondaSection(cfg, host).value;
      var python := "python=" + EnvVersion(cfg.basePython, w.versionDot);
      var prepared := Prepare(exe, python, section, Given(cfg.condaEnv), host.documents, w);
      && (prepared.Failure? ==> t == Trace([], Failure(prepared.error)))
      && (prepared.Success? ==>
          var created := RunCreate(prepared.value.1, cfg.envDir, w).outcome;
          && (created.Failure? ==> t.outcome == created)
          && (created.Success? ==> t.outcome == RunInstall(InstallCommand(exe, python, section), w).outcome))
    ensures |Runs(t.steps)| <= 2
    ensures |Runs(t.steps)| == 2 ==> w.status(Runs(t.steps)[0]) == 0
  {
    match FindCondaAsWritten(m)
    case Failure(e) => Trace([], Failure(e))
    case Success(exe) =>
      var python := "python=" + EnvVersion(cfg.basePython, w.versionDot);
      match CondaSection(cfg, host)
      case Failure(e) => Trace([], Failure(e))
      case Success(section) => CreateFlow(exe, python, section, Given(cfg.condaEnv), cfg.envDir, host.documents, w)
  }

  /** With both a name and `conda_env` configured, the written method asks
      the table for an `env_path` it never holds and raises `KeyError`
      before anything runs. */
  lemma CreatePythonEnvAsWrittenKeyError(cfg: Config, host: Host, m: Machine, w: World)
    requires cfg.basePython != []
    requires Given(ChosenName(cfg)) && Given(cfg.condaEnv)
    requires FindCondaAsWritten(m).Success? && CondaSection(cfg, host).Success?
    ensures CreatePythonEnvAsWritten(cfg, host, m, w) == Trace([], Failure(KeyError("env_path")))
    ensures CreatePythonEnv(cfg, host, m, w).outcome != Failure(KeyError("env_path"))
  {
    CondaSectionEnvFileEntries(cfg, host);
    var section := CondaSection(cfg, host).value;
    var python := "python=" + EnvVersion(cfg.basePython, w.versionDot);
    var exe := FindCondaAsWritten(m).value;
    CreateFlowOutcome(exe, python, section, false, cfg.envDir, host.documents, w);
  }

  /** The plain create path never fails with a `KeyError`. */
  lemma CreateFlowOutcome(exe: string, python: string, section: map<string, Value>, fromEnvFile: bool,
                          envDir: string, docs: map<string, Yaml>, w: World)
    requires WellFormedConda(section) && !fromEnvFile
    ensures CreateFlow(exe, python, section, fromEnvFile, envDir, docs, w).outcome.Success?
      || !CreateFlow(exe, python, section, fromEnvFile, envDir, docs, w).outcome.error.KeyError?
  {
    var c := CreateCommand(exe, python, section);
    SplitErrors(c.command);
    if InstallCommand(exe, python, section).Some? {
      SplitErrors(InstallCommand(exe, python, section).value);
    }
  }

  /** `shlex.split` only ever fails with `ValueError`. */
  lemma SplitErrors(s: string)
    ensures Split(s).Failure? ==> Split(s).error.ValueError?
  {
    LexErrors(s, Between, "", []);
  }

  lemma {:induction false} LexErrors(s: string, st: LexState, cur: string, acc: seq<string>)
    ensures Lex(s, st, cur, acc).Failure? ==> Lex(s, st, cur, acc).error.ValueError?
    decreases |s|
  {
    if s != [] {
      var c, rest := s[0], s[1..];
      match st
      case Between =>
        LexErrors(rest, Between, cur, acc);
        LexErrors(rest, Escaped(false), "", acc);
        LexErrors(rest, InSingle, "", acc);
        LexErrors(rest, InDouble, "", acc);
        LexErrors(rest, InWord, [c], acc);
      case InWord =>
        LexErrors(rest, Between, "", acc + [cur]);
        LexErrors(rest, InSingle, cur, acc);
        LexErrors(rest, InDouble, cur, acc);
        LexErrors(rest, Escaped(false), cur, acc);
        LexErrors(rest, InWord, cur + [c], acc);
      case InSingle =>
        LexErrors(rest, InWord, cur, acc);
        LexErrors(rest, InSingle, cur + [c], acc);
      case InDouble =>
        LexErrors(rest, InWord, cur, acc);
        LexErrors(rest, Escaped(true), cur, acc);
        LexErrors(rest, InDouble, cur + [c], acc);
      case Escaped(inDouble) =>
        var kept := if inDouble && c != '\\' && c != '"' then cur + ['\\'] else cur;
        LexErrors(rest, if inDouble then InDouble else InWord, kept + [c], acc);
    }
  }

  /** Whenever no name is chosen, or no environment file is configured, the
      written dispatch and the table's agree, and so do the two methods. */
  lemma CreatePythonEnvAgrees(cfg: Config, host: Host, m: Machine, w: World)
    requires cfg.basePython != []
    requires !(Given(ChosenName(cfg)) && Given(cfg.condaEnv))
    ensures CreatePythonEnvAsWritten(cfg, host, m, w) == CreatePythonEnv(cfg, host, m, w)
  {
    if CondaSection(cfg, host).Success? {
      CondaSectionEnvFileEntries(cfg, host);
    }
  }

  /** A successful create flow ran every program to a zero exit: the create
      command, then the install command when there is one. */
  lemma CreateFlowSucceeds(exe: string, python: string, section: map<string, Value>, fromEnvFile: bool,
                           envDir: string, docs: map<string, Yaml>, w: World)
    requires WellFormedConda(section)
    requires CreateFlow(exe, python, section, fromEnvFile, envDir, docs, w).outcome.Success?
    ensures var runs := Runs(CreateFlow(exe, python, section, fromEnvFile, envDir, docs, w).steps);
      && |runs| == (if "deps" in section || "spec" in section then 2 else 1)
      && forall i :: 0 <= i < |runs| ==> w.status(runs[i]) == 0
  {
    var p := Prepare(exe, python, section, fromEnvFile, docs, w).value;
    CreateThenInstallRunCount(p.0, p.1, InstallCommand(exe, python, section), envDir, w);
  }

  /** The environment-file route writes the pinned file first and removes it
      again, whether or not the create command succeeded. */
  lemma CreateFlowRemovesEnvFile(exe: string, python: string, section: map<string, Value>,
                                 envDir: string, docs: map<string, Yaml>, w: World)
    requires WellFormedConda(section)
    requires EnvCreateCommand(exe, python, section, docs, w.tmpName).Success?
    ensures var steps := CreateFlow(exe, python, section, true, envDir, docs, w).steps;
      && |steps| >= 2
      && steps[0] == WriteEnvFile(w.tmpName, EnvCreateCommand(exe, python, section, docs, w.tmpName).value.envFile)
      && Remove(w.tmpName) in steps
  {
    var ec := EnvCreateCommand(exe, python, section, docs, w.tmpName).value;
    assert CleanupSteps(ec.creation.tearDown) == [Remove(w.tmpName)];
  }

  /** Without `conda_env`, the first program `create_python_env` runs is
      `conda create` with the selector, the python pin and the create
      arguments of the configuration, each one word. */
  lemma CreatePythonEnvRunsCreate(cfg: Config, host: Host, m: Machine, w: World)
    requires cfg.basePython != []
    requires !Given(cfg.condaEnv)
    requires FindCondaAsWritten(m).Success? && CondaSection(cfg, host).Success?
    requires QuoteSafe(FindCondaAsWritten(m).value) && QuoteSafe(EnvName(CondaSection(cfg, host).value))
    requires BareSafe("python=" + EnvVersion(cfg.basePython, w.versionDot))
    requires cfg.createArgs.Some? ==> AllQuoteSafe(cfg.createArgs.value)
    ensures var runs := Runs(CreatePythonEnvAsWritten(cfg, host, m, w).steps);
      && |runs| >= 1
      && runs[0] == [FindCondaAsWritten(m).value, "create", EnvSpec(CondaSection(cfg, host).value),
                     EnvName(CondaSection(cfg, host).value), "python=" + EnvVersion(cfg.basePython, w.versionDot),
                     "--yes", "--quiet"] + ListOrEmpty(cfg.createArgs)
  {
    var section := CondaSection(cfg, host).value;
    var exe := FindCondaAsWritten(m).value;
    var python := "python=" + EnvVersion(cfg.basePython, w.versionDot);
    CreatePythonEnvAgrees(cfg, host, m, w);
    CondaSectionEnvFileEntries(cfg, host);
    SectionSelector(cfg, host);
    CondaSectionListEntries(cfg, host, "create_args");
    assert ListOf(section, "create_args") == ListOrEmpty(cfg.createArgs);
    CreateCommandSplits(exe, python, section);
    CreateThenInstallFirstRun([], CreateCommand(exe, python, section), InstallCommand(exe, python, section), cfg.envDir, w);
  }

  /** Without `conda_env`, a `conda create` that exits non-zero ends
      `create_python_env` with `Fail("Failed to create '<env_dir>' conda
      environment. Error: …")`, and nothing else runs. */
  lemma CreatePythonEnvCreateFails(cfg: Config, host: Host, m: Machine, w: World)
    requires cfg.basePython != []
    requires !Given(cfg.condaEnv)
    requires FindCondaAsWritten(m).Success? && CondaSection(cfg, host).Success?
    requires QuoteSafe(FindCondaAsWritten(m).value) && QuoteSafe(EnvName(CondaSection(cfg, host).value))
    requires BareSafe("python=" + EnvVersion(cfg.basePython, w.versionDot))
    requires cfg.createArgs.Some? ==> AllQuoteSafe(cfg.createArgs.value)
    requires var argv := [FindCondaAsWritten(m).value, "create", EnvSpec(CondaSection(cfg, host).value),
                          EnvName(CondaSection(cfg, host).value), "python=" + EnvVersion(cfg.basePython, w.versionDot),
                          "--yes", "--quiet"] + ListOrEmpty(cfg.createArgs);
      w.status(argv) != 0
    ensures var argv := [FindCondaAsWritten(m).value, "create", EnvSpec(CondaSection(cfg, host).value),
                         EnvName(CondaSection(cfg, host).value), "python=" + EnvVersion(cfg.basePython, w.versionDot),
                         "--yes", "--quiet"] + ListOrEmpty(cfg.createArgs);
      var t := CreatePythonEnvAsWritten(cfg, host, m, w);
      && t.outcome == Failure(CreateFailed(cfg.envDir, w.describe(argv, w.status(argv))))
      && Runs(t.steps) == [argv]
  {
    var section := CondaSection(cfg, host).value;
    var exe := FindCondaAsWritten(m).value;
    var python := "python=" + EnvVersion(cfg.basePython, w.versionDot);
    SectionSelector(cfg, host);
    CondaSectionListEntries(cfg, host, "create_args");
    assert ListOf(section, "create_args") == ListOrEmpty(cfg.createArgs);
    CreateCommandSplits(exe, python, section);
    CreateThenInstallRuns([], CreateCommand(exe, python, section), InstallCommand(exe, python, section), cfg.envDir, w);
  }

  /** The selector words of a "conda" table: `-n` for a name or an
      environment file, `-p` for the environment directory. */
  lemma SectionSelector(cfg: Config, host: Host)
    requires CondaSection(cfg, host).Success?
    ensures EnvSpec(CondaSection(cfg, host).value)
         == if Given(ChosenName(cfg)) || Given(cfg.condaEnv) then "-n" else "-p"
    ensures EnvName(CondaSection(cfg, host).value)
         == if Given(ChosenName(cfg)) then ChosenName(cfg).value
            else if Given(cfg.condaEnv) then EnvFileName(host, host.resolve(cfg.condaEnv.value)).value
            else cfg.envDir
    ensures BareSafe(EnvSpec(CondaSection(cfg, host).value))
  {
    CondaSectionSelector(cfg, host);
    FixedWordsSafe();
  }

  // ---------------------------------------------------- ensuring existence

  /** Which way `_ensure_python_env_exists` returned normally. */
  datatype Ensured = CreatedNow | KnownCreated | FoundListed

  /** The `conda env list --json` run: the decoded `envs` list, or the text
      of the `CalledProcessError` it raised. */
  datatype Listing = Listed(envs: seq<string>) | ListFailed(detail: string)

  function ListingFailed(detail: string): Error
  {
    Fail("Failed to list conda environments. Error: " + detail)
  }

  function NotCondaEnv(envDir: string): Error
  {
    Fail(envDir + " already exists, but it is not a conda environment. Delete in manually first.")
  }

  /** `_ensure_python_env_exists`: a missing directory is created; a
      directory this runner already created is accepted as is; any other
      directory must be one of the environments conda lists. `create` is the
      outcome of `create_python_env`, `find` that of `find_conda`. */
  function EnsureEnvExists(created: bool, dirExists: bool, envDir: string, create: Result<()>,
                           find: Result<string>, listing: seq<string> -> Listing): (r: Result<Ensured>)
    ensures r == Success(CreatedNow) <==> !dirExists && create.Success?
    ensures r == Success(KnownCreated) <==> dirExists && created
    ensures !dirExists && create.Failure? ==> r == Failure(create.error)
    ensures r == Success(FoundListed) <==>
      && dirExists && !created && find.Success? && Split(ListCommand(find.value)).Success?
      && listing(Split(ListCommand(find.value)).value).Listed?
      && envDir in listing(Split(ListCommand(find.value)).value).envs
    ensures dirExists && !created && find.Failure? ==> r == Failure(find.error)
    ensures dirExists && !created && find.Success? && Split(ListCommand(find.value)).Failure? ==>
      r == Failure(Split(ListCommand(find.value)).error)
    ensures dirExists && !created && find.Success? && Split(ListCommand(find.value)).Success? ==>
      match listing(Split(ListCommand(find.value)).value)
      case ListFailed(detail) => r == Failure(ListingFailed(detail))
      case Listed(envs) => envDir !in envs ==> r == Failure(NotCondaEnv(envDir))
  {
    if !dirExists then
      match create
      case Failure(e) => Failure(e)
      case Success(_) => Success(CreatedNow)
    else if created then Success(KnownCreated)
    else
      match find
      case Failure(e) => Failure(e)
      case Success(exe) =>
        match Split(ListCommand(exe))
        case Failure(e) => Failure(e)
        case Success(argv) =>
          match listing(argv)
          case ListFailed(detail) => Failure(ListingFailed(detail))
          case Listed(envs) => if envDir in envs then Success(FoundListed) else Failure(NotCondaEnv(envDir))
  }

  /** An existing directory the runner did not create is checked against
      `conda env list --json`: listed, it is accepted; not listed, or the
      listing failed, the check fails with the matching message. */
  lemma EnsureEnvExistsListing(created: bool, dirExists: bool, envDir: string, create: Result<()>,
                               find: Result<string>, listing: seq<string> -> Listing)
    requires dirExists && !created && find.Success? && QuoteSafe(find.value)
    ensures var r := EnsureEnvExists(created, dirExists, envDir, create, find, listing);
      match listing([find.value, "env", "list", "--json"])
      case ListFailed(detail) => r == Failure(ListingFailed(detail))
      case Listed(envs) => r == if envDir in envs then Success(FoundListed) else Failure(NotCondaEnv(envDir))
  {
    ListCommandSplits(find.value);
  }

  /** The `_created` flag after the check: set by every normal return, left alone by a failure. */
  function CreatedAfter(created: bool, r: Result<Ensured>): bool
  {
    created || r.Success?
  }

  /** Once the check has passed, the next one returns at once without
      creating or listing anything, as long as the directory is still there. */
  lemma EnsureEnvExistsSettles(created: bool, dirExists: bool, envDir: string, create: Result<()>,
                               find: Result<string>, listing: seq<string> -> Listing,
                               create2: Result<()>, find2: Result<string>, listing2: seq<string> -> Listing)
    requires EnsureEnvExists(created, dirExists, envDir, create, find, listing).Success?
    ensures var again := CreatedAfter(created, EnsureEnvExists(created, dirExists, envDir, create, find, listing));
      EnsureEnvExists(again, true, envDir, create2, find2, listing2) == Success(KnownCreated)
  {
  }

  // ------------------------------------------------------------- executor

  /** The fields of the host's `ExecuteRequest` the executor passes on. */
  datatype ExecuteRequest = ExecuteRequest(
    cmd: seq<string>,
    cwd: string,
    env: map<string, string>,
    stdin: string,
    runId: string,
    allow: Option<seq<string>>)

  /** `build_instance`: the request with the `conda run` prefix in front of
      its command and every other field passed on unchanged. */
  function CondaRequest(cfg: Config, host: Host, m: Machine, req: ExecuteRequest): (r: Result<ExecuteRequest>)
    ensures r.Success? <==>
      && FindCondaAsWritten(m).Success? && CondaSection(cfg, host).Success?
      && Split(RunPrefix(FindCondaAsWritten(m).value, CondaSection(cfg, host).value)).Success?
    ensures r.Success? ==>
      && r.value.cmd == Split(RunPrefix(FindCondaAsWritten(m).value, CondaSection(cfg, host).value)).value + req.cmd
      && r.value.cwd == req.cwd && r.value.env == req.env && r.value.stdin == req.stdin
      && r.value.runId == req.runId && r.value.allow == req.allow
    ensures FindCondaAsWritten(m).Failure? ==> r == Failure(FindCondaAsWritten(m).error)
    ensures FindCondaAsWritten(m).Success? && CondaSection(cfg, host).Failure? ==>
      r == Failure(CondaSection(cfg, host).error)
    ensures FindCondaAsWritten(m).Success? && CondaSection(cfg, host).Success? ==>
      var prefix := Split(RunPrefix(FindCondaAsWritten(m).value, CondaSection(cfg, host).value));
      prefix.Failure? ==> r == Failure(prefix.error)
  {
    var exe :- FindCondaAsWritten(m);
    var section :- CondaSection(cfg, host);
    var prefix :- Split(RunPrefix(exe, section));
    Success(req.(cmd := prefix + req.cmd))
  }

  /** The rewritten command is `exe run <env_spec> <env> --live-stream`
      followed by the original command. */
  lemma CondaRequestCommand(cfg: Config, host: Host, m: Machine, req: ExecuteRequest)
    requires FindCondaAsWritten(m).Success? && CondaSection(cfg, host).Success?
    requires QuoteSafe(FindCondaAsWritten(m).value) && QuoteSafe(EnvName(CondaSection(cfg, host).value))
    ensures CondaRequest(cfg, host, m, req)
         == Success(req.(cmd := [FindCondaAsWritten(m).value, "run", EnvSpec(CondaSection(cfg, host).value),
                                 EnvName(CondaSection(cfg, host).value), "--live-stream"] + req.cmd))
  {
    SectionSelector(cfg, host);
    RunPrefixSplits(FindCondaAsWritten(m).value, CondaSection(cfg, host).value);
  }

  /** With neither a name nor an environment file, commands run as
      `exe run -p <env_dir> --live-stream <cmd>`, even for a directory with
      blanks in its name. */
  lemma CondaRequestByPrefix(cfg: Config, host: Host, m: Machine, req: ExecuteRequest)
    requires !Given(ChosenName(cfg)) && !Given(cfg.condaEnv)
    requires FindCondaAsWritten(m).Success? && QuoteSafe(FindCondaAsWritten(m).value) && QuoteSafe(cfg.envDir)
    requires CondaSection(cfg, host).Success?
    ensures CondaRequest(cfg, host, m, req)
         == Success(req.(cmd := [FindCondaAsWritten(m).value, "run", "-p", cfg.envDir, "--live-stream"] + req.cmd))
  {
    SectionSelector(cfg, host);
    CondaRequestCommand(cfg, host, m, req);
  }
}

=== FILE: shlex.dfy ===
/** Python's `shlex.split(s)` (POSIX mode, blanks split words, no comments),
    which turns every command string of the plugin into an argument list,
    and the two ways the plugin writes a word into a command string: as is,
    or between single quotes. */
module Shlex {
  import opened Outcomes
  import opened Text

  /** `shlex`'s default whitespace set. */
  predicate IsBlank(c: char)
  {
    c == ' ' || c == '\t' || c == '\r' || c == '\n'
  }

  /** Where the lexer is: between words, inside a word, inside single or
      double quotes, or just after a backslash (remembering where to resume). */
  datatype LexState = Between | InWord | InSingle | InDouble | Escaped(inDouble: bool)

  /** `shlex`'s `read_token` loop run over the whole input: `cur` is the word
      being read and `acc` the words already produced. */
  function Lex(s: string, st: LexState, cur: string, acc: seq<string>): Result<seq<string>>
    decreases |s|
  {
    if s == [] then
      match st
      case Between => Success(acc)
      case InWord => Success(acc + [cur])
      case InSingle => Failure(ValueError("No closing quotation"))
      case InDouble => Failure(ValueError("No closing quotation"))
      case Escaped(_) => Failure(ValueError("No escaped character"))
    else
      var c, rest := s[0], s[1..];
      match st
      case Between =>
        if IsBlank(c) then Lex(rest, Between, cur, acc)
        else if c == '\\' then Lex(rest, Escaped(false), "", acc)
        else if c == '\'' then Lex(rest, InSingle, "", acc)
        else if c == '"' then Lex(rest, InDouble, "", acc)
        else Lex(rest, InWord, [c], acc)
      case InWord =>
        if IsBlank(c) then Lex(rest, Between, "", acc + [cur])
        else if c == '\'' then Lex(rest, InSingle, cur, acc)
        else if c == '"' then Lex(rest, InDouble, cur, acc)
        else if c == '\\' then Lex(rest, Escaped(false), cur, acc)
        else Lex(rest, InWord, cur + [c], acc)
      case InSingle =>
        if c == '\'' then Lex(rest, InWord, cur, acc)
        else Lex(rest, InSingle, cur + [c], acc)
      case InDouble =>
        if c == '"' then Lex(rest, InWord, cur, acc)
        else if c == '\\' then Lex(rest, Escaped(true), cur, acc)
        else Lex(rest, InDouble, cur + [c], acc)
      case Escaped(inDouble) =>
        // inside double quotes a backslash only escapes `"` and itself
        var kept := if inDouble && c != '\\' && c != '"' then cur + ['\\'] else cur;
        Lex(rest, if inDouble then InDouble else InWord, kept + [c], acc)
  }

  /** `shlex.split(s)`. */
  function Split(s: string): Result<seq<string>>
  {
    Lex(s, Between, "", [])
  }

  /** A word as the plugin writes it into a command string. */
  datatype Arg = Quoted(text: string) | Bare(text: string)

  /** The f-string quoting `'{x}'`. */
  function SingleQuoted(t: string): string
  {
    "'" + t + "'"
  }

  function Render(a: Arg): string
  {
    match a
    case Quoted(t) => SingleQuoted(t)
    case Bare(t) => t
  }

  predicate Plain(c: char)
  {
    !IsBlank(c) && c != '\'' && c != '"' && c != '\\'
  }

  /** Words that `shlex.split` reads back unchanged: a quoted word holding no
      single quote, or a non-empty bare word of plain characters. */
  predicate SafeArg(a: Arg)
  {
    match a
    case Quoted(t) => forall i :: 0 <= i < |t| ==> t[i] != '\''
    case Bare(t) => t != [] && forall i :: 0 <= i < |t| ==> Plain(t[i])
  }

  predicate AllSafe(args: seq<Arg>)
  {
    forall i :: 0 <= i < |args| ==> SafeArg(args[i])
  }

  /** A word that survives being written bare. */
  predicate BareSafe(w: string)
  {
    SafeArg(Bare(w))
  }

  /** A word that survives being written between single quotes. */
  predicate QuoteSafe(w: string)
  {
    SafeArg(Quoted(w))
  }

  function RenderAll(args: seq<Arg>): (r: seq<string>)
    ensures |r| == |args|
    ensures forall i :: 0 <= i < |args| ==> r[i] == Render(args[i])
  {
    if args == [] then [] else [Render(args[0])] + RenderAll(args[1..])
  }

  function TextsOf(args: seq<Arg>): (r: seq<string>)
    ensures |r| == |args|
    ensures forall i :: 0 <= i < |args| ==> r[i] == args[i].text
  {
    if args == [] then [] else [args[0].text] + TextsOf(args[1..])
  }

  /** The command line the words make: rendered and joined by single blanks. */
  function CommandLine(args: seq<Arg>): string
  {
    JoinWords(RenderAll(args))
  }

  function Bares(ws: seq<string>): (r: seq<Arg>)
    ensures |r| == |ws|
    ensures forall i :: 0 <= i < |ws| ==> r[i] == Bare(ws[i])
  {
    if ws == [] then [] else [Bare(ws[0])] + Bares(ws[1..])
  }

  function QuotedAll(ws: seq<string>): (r: seq<Arg>)
    ensures |r| == |ws|
    ensures forall i :: 0 <= i < |ws| ==> r[i] == Quoted(ws[i])
  {
    if ws == [] then [] else [Quoted(ws[0])] + QuotedAll(ws[1..])
  }

  lemma RenderAllConcat(a: seq<Arg>, b: seq<Arg>)
    ensures RenderAll(a + b) == RenderAll(a) + RenderAll(b)
  {
  }

  lemma TextsOfConcat(a: seq<Arg>, b: seq<Arg>)
    ensures TextsOf(a + b) == TextsOf(a) + TextsOf(b)
  {
  }

  lemma TextsOfBares(ws: seq<string>)
    ensures TextsOf(Bares(ws)) == ws
  {
  }

  lemma TextsOfQuotedAll(ws: seq<string>)
    ensures TextsOf(QuotedAll(ws)) == ws
  {
  }

  /** Extending a command line word by word gives the command line of all the words. */
  lemma CommandLineAppend(args: seq<Arg>, more: seq<Arg>)
    requires args != []
    ensures AppendEach(CommandLine(args), RenderAll(more)) == CommandLine(args + more)
  {
    RenderAllConcat(args, more);
    AppendEachJoin(RenderAll(args), RenderAll(more));
  }

  /** Extending a command line by blank-preceded words. */
  lemma CommandLineExtend(args: seq<Arg>, more: seq<Arg>)
    requires args != []
    ensures CommandLine(args) + Spaced(RenderAll(more)) == CommandLine(args + more)
  {
    CommandLineAppend(args, more);
  }

  lemma RenderAllBares(ws: seq<string>)
    ensures RenderAll(Bares(ws)) == ws
  {
  }

  lemma AllSafeConcat(a: seq<Arg>, b: seq<Arg>)
    requires AllSafe(a) && AllSafe(b)
    ensures AllSafe(a + b)
  {
    forall i | 0 <= i < |a + b| ensures SafeArg((a + b)[i]) {
      if i < |a| { assert (a + b)[i] == a[i]; } else { assert (a + b)[i] == b[i - |a|]; }
    }
  }

  lemma AllSafeBares(ws: seq<string>)
    requires forall i :: 0 <= i < |ws| ==> BareSafe(ws[i])
    ensures AllSafe(Bares(ws))
  {
  }

  lemma AllSafeQuotedAll(ws: seq<string>)
    requires forall i :: 0 <= i < |ws| ==> QuoteSafe(ws[i])
    ensures AllSafe(QuotedAll(ws))
  {
  }

  /** Inside single quotes every character up to the closing quote is kept. */
  lemma {:induction false} LexSingleQuoted(t: string, rest: string, cur: string, acc: seq<string>)
    requires forall i :: 0 <= i < |t| ==> t[i] != '\''
    ensures Lex(t + "'" + rest, InSingle, cur, acc) == Lex(rest, InWord, cur + t, acc)
  {
    var s := t + "'" + rest;
    if t == [] {
      assert s == "'" + rest;
      assert s[1..] == rest;
      assert cur + t == cur;
    } else {
      assert s[0] == t[0];
      assert s[1..] == t[1..] + "'" + rest;
      LexSingleQuoted(t[1..], rest, cur + [t[0]], acc);
      assert cur + [t[0]] + t[1..] == cur + t;
    }
  }

  /** Plain characters extend the current word. */
  lemma {:induction false} LexPlainRun(t: string, rest: string, cur: string, acc: seq<string>)
    requires forall i :: 0 <= i < |t| ==> Plain(t[i])
    ensures Lex(t + rest, InWord, cur, acc) == Lex(rest, InWord, cur + t, acc)
  {
    if t == [] {
      assert t + rest == rest;
      assert cur + t == cur;
    } else {
      var s := t + rest;
      assert s[0] == t[0];
      assert s[1..] == t[1..] + rest;
      LexPlainRun(t[1..], rest, cur + [t[0]], acc);
      assert cur + [t[0]] + t[1..] == cur + t;
    }
  }

  /** Between words, a safe rendered word is read back as its text. */
  lemma LexArg(a: Arg, rest: string, acc: seq<string>)
    requires SafeArg(a)
    ensures Lex(Render(a) + rest, Between, "", acc) == Lex(rest, InWord, a.text, acc)
  {
    match a
    case Quoted(t) =>
      var s := Render(a) + rest;
      assert s == "'" + (t + "'" + rest);
      assert s[0] == '\'';
      assert s[1..] == t + "'" + rest;
      LexSingleQuoted(t, rest, "", acc);
      assert "" + t == t;
    case Bare(t) =>
      var s := t + rest;
      assert s[0] == t[0];
      assert s[1..] == t[1..] + rest;
      LexPlainRun(t[1..], rest, [t[0]], acc);
      assert [t[0]] + t[1..] == t;
  }

  /** A blank ends the current word. */
  lemma LexBlankEndsWord(rest: string, cur: string, acc: seq<string>)
    ensures Lex(" " + rest, InWord, cur, acc) == Lex(rest, Between, "", acc + [cur])
  {
    var line := " " + rest;
    assert line[0] == ' ' && line[1..] == rest;
  }

  /** `shlex.split` reads a command line of safe words back as the words' texts. */
  lemma {:induction false} LexCommandLine(args: seq<Arg>, acc: seq<string>)
    requires args != [] && AllSafe(args)
    ensures Lex(CommandLine(args), Between, "", acc) == Success(acc + TextsOf(args))
  {
    var a := args[0];
    assert SafeArg(a);
    if |args| == 1 {
      LexSingleArg(a, acc);
      assert args == [a];
    } else {
      var tail := args[1..];
      assert AllSafe(tail) by {
        forall i | 0 <= i < |tail| ensures SafeArg(tail[i]) {
          assert tail[i] == args[i + 1];
        }
      }
      var line := CommandLine(tail);
      CommandLineCons(a, tail);
      assert [a] + tail == args;
      LexArg(a, " " + line, acc);
      LexBlankEndsWord(line, a.text, acc);
      LexCommandLine(tail, acc + [a.text]);
      assert TextsOf(args) == [a.text] + TextsOf(tail);
      assert acc + [a.text] + TextsOf(tail) == acc + TextsOf(args);
    }
  }

  lemma LexSingleArg(a: Arg, acc: seq<string>)
    requires SafeArg(a)
    ensures Lex(CommandLine([a]), Between, "", acc) == Success(acc + TextsOf([a]))
  {
    assert RenderAll([a]) == [Render(a)];
    assert CommandLine([a]) == Render(a) + "";
    LexArg(a, "", acc);
    assert Lex("", InWord, a.text, acc) == Success(acc + [a.text]);
    assert TextsOf([a]) == [a.text];
  }

  lemma CommandLineCons(a: Arg, tail: seq<Arg>)
    requires tail != []
    ensures CommandLine([a] + tail) == Render(a) + (" " + CommandLine(tail))
  {
    assert RenderAll([a] + tail) == [Render(a)] + RenderAll(tail);
    JoinWordsCons(Render(a), RenderAll(tail));
  }

  /** Round trip: splitting a command line of safe words gives back their texts. */
  lemma SplitCommandLine(args: seq<Arg>)
    requires args != [] && AllSafe(args)
    ensures Split(CommandLine(args)) == Success(TextsOf(args))
  {
    LexCommandLine(args, []);
    assert [] + TextsOf(args) == TextsOf(args);
  }

  /** A safe word followed by a blank is read back as its text. */
  lemma LexArgThenBlank(a: Arg, rest: string, acc: seq<string>)
    requires SafeArg(a)
    ensures Lex(Render(a) + (" " + rest), Between, "", acc) == Lex(rest, Between, "", acc + [a.text])
  {
    LexArg(a, " " + rest, acc);
    LexBlankEndsWord(rest, a.text, acc);
  }

  /** Adding a blank and more input after a command line. */
  lemma CommandLineThen(args: seq<Arg>, rest: string)
    requires |args| >= 2
    ensures CommandLine(args) + " " + rest == Render(args[0]) + (" " + (CommandLine(args[1..]) + " " + rest))
  {
    CommandLineCons(args[0], args[1..]);
    assert [args[0]] + args[1..] == args;
  }

  /** A command line of safe words followed by a blank: the words are read
      back and the lexer is between words again. */
  lemma {:induction false} LexCommandLineThen(args: seq<Arg>, rest: string, acc: seq<string>)
    requires args != [] && AllSafe(args)
    ensures Lex(CommandLine(args) + " " + rest, Between, "", acc) == Lex(rest, Between, "", acc + TextsOf(args))
  {
    var a := args[0];
    assert SafeArg(a);
    if |args| == 1 {
      assert CommandLine(args) + " " + rest == Render(a) + (" " + rest) by {
        assert args == [a];
        assert RenderAll([a]) == [Render(a)];
      }
      LexArgThenBlank(a, rest, acc);
      assert TextsOf(args) == [a.text];
    } else {
      var tail := args[1..];
      assert AllSafe(tail) by {
        forall i | 0 <= i < |tail| ensures SafeArg(tail[i]) {
          assert tail[i] == args[i + 1];
        }
      }
      CommandLineThen(args, rest);
      LexArgThenBlank(a, CommandLine(tail) + " " + rest, acc);
      LexCommandLineThen(tail, rest, acc + [a.text]);
      assert TextsOf(args) == [a.text] + TextsOf(tail);
      assert acc + [a.text] + TextsOf(tail) == acc + TextsOf(args);
    }
  }

  /** Inside single quotes, input without a closing quote runs out unclosed. */
  lemma {:induction false} LexUnclosedSingle(t: string, cur: string, acc: seq<string>)
    requires '\'' !in t
    ensures Lex(t, InSingle, cur, acc) == Failure(ValueError("No closing quotation"))
    decreases |t|
  {
    if t != [] {
      assert t[0] != '\'';
      assert '\'' !in t[1..] by {
        forall i | 0 <= i < |t[1..]| ensures t[1..][i] != '\'' {
          assert t[1..][i] == t[i + 1];
        }
      }
      LexUnclosedSingle(t[1..], cur + [t[0]], acc);
    }
  }

  /** Any command line of safe words followed by a word that opens a single
      quote and never closes it makes `shlex.split` fail. */
  lemma SplitUnclosedQuote(args: seq<Arg>, t: string)
    requires AllSafe(args) && '\'' !in t
    ensures Split((if args == [] then "" else CommandLine(args) + " ") + "'" + t)
         == Failure(ValueError("No closing quotation"))
  {
    var quoted := "'" + t;
    assert quoted[0] == '\'' && quoted[1..] == t;
    LexUnclosedSingle(t, "", []);
    assert Lex(quoted, Between, "", []) == Lex(t, InSingle, "", []);
    if args == [] {
      assert "" + "'" + t == quoted;
    } else {
      assert CommandLine(args) + " " + "'" + t == CommandLine(args) + " " + quoted;
      LexCommandLineThen(args, quoted, []);
      LexUnclosedSingle(t, "", [] + TextsOf(args));
    }
  }
}

=== FILE: text.dfy ===
/** String helpers with Python meaning: `" ".join(words)`, the
    `cmd += f" {w}"` accumulation loops that build command lines, and
    `str.split()` with no separator. */
module Text {

  /** The words, each preceded by one blank: `" w1 w2 ... wn"`. */
  function Spaced(ws: seq<string>): string
  {
    if ws == [] then "" else " " + ws[0] + Spaced(ws[1..])
  }

  /** Python `" ".join(ws)`. */
  function JoinWords(ws: seq<string>): string
  {
    if ws == [] then "" else ws[0] + Spaced(ws[1..])
  }

  /** The accumulation loop `for w in ws: cmd += f" {w}"`, one word at a time. */
  function AppendEach(cmd: string, ws: seq<string>): (r: string)
    ensures r == cmd + Spaced(ws)
    decreases |ws|
  {
    if ws == [] then cmd else AppendEach(cmd + " " + ws[0], ws[1..])
  }

  lemma {:induction false} SpacedConcat(a: seq<string>, b: seq<string>)
    ensures Spaced(a + b) == Spaced(a) + Spaced(b)
  {
    if a == [] {
      assert a + b == b;
    } else {
      assert (a + b)[1..] == a[1..] + b;
      SpacedConcat(a[1..], b);
    }
  }

  /** Appending words to a joined command line gives the join of all the words. */
  lemma AppendEachJoin(ws: seq<string>, more: seq<string>)
    requires ws != []
    ensures AppendEach(JoinWords(ws), more) == JoinWords(ws + more)
  {
    assert (ws + more)[1..] == ws[1..] + more;
    SpacedConcat(ws[1..], more);
  }

  /** The first word of a join of two or more words is followed by a blank. */
  lemma JoinWordsCons(w: string, ws: seq<string>)
    requires ws != []
    ensures JoinWords([w] + ws) == w + " " + JoinWords(ws)
  {
    assert ([w] + ws)[1..] == ws;
  }

  /** Python's `str.isspace()` characters: the separators `str.split()` drops. */
  predicate IsPyWhitespace(c: char)
  {
    c == ' ' || ('\t' <= c <= '\r') || ('\U{1C}' <= c <= '\U{1F}')
    || c == '\U{85}' || c == '\U{A0}' || c == '\U{1680}'
    || ('\U{2000}' <= c <= '\U{200A}') || c == '\U{2028}' || c == '\U{2029}'
    || c == '\U{202F}' || c == '\U{205F}' || c == '\U{3000}'
  }

  predicate NoWhitespace(s: string)
  {
    forall i :: 0 <= i < |s| ==> !IsPyWhitespace(s[i])
  }

  /** Printable ASCII other than the blank: no Python whitespace among it. */
  predicate Printable(s: string)
  {
    forall i :: 0 <= i < |s| ==> '!' <= s[i] <= '~'
  }

  lemma PrintableNoWhitespace(s: string)
    requires Printable(s)
    ensures NoWhitespace(s)
  {
  }

  /** Length of the longest prefix of `s` holding no whitespace. */
  function WordLength(s: string): (n: nat)
    ensures n <= |s|
    ensures NoWhitespace(s[..n])
    ensures n < |s| ==> IsPyWhitespace(s[n])
  {
    if s == [] || IsPyWhitespace(s[0]) then 0
    else
      var n := 1 + WordLength(s[1..]);
      assert s[..n] == [s[0]] + s[1..][..n - 1];
      n
  }

  /** Python `s.split()`: the maximal whitespace-free runs of `s`, in order. */
  function Fields(s: string): (r: seq<string>)
    ensures forall i :: 0 <= i < |r| ==> r[i] != "" && NoWhitespace(r[i])
    decreases |s|
  {
    if s == [] then []
    else if IsPyWhitespace(s[0]) then Fields(s[1..])
    else
      var n := WordLength(s);
      [s[..n]] + Fields(s[n..])
  }

  lemma {:induction false} WordLengthOfWord(w: string, sep: char, rest: string)
    requires NoWhitespace(w) && IsPyWhitespace(sep)
    ensures WordLength(w + [sep] + rest) == |w|
  {
    var s := w + [sep] + rest;
    var n := WordLength(s);
    assert s[|w|] == sep;
    assert forall i :: 0 <= i < |w| ==> s[i] == w[i];
  }

  /** A whitespace-free word followed by a separator is the first field. */
  lemma FieldsOfWord(w: string, sep: char, rest: string)
    requires w != [] && NoWhitespace(w) && IsPyWhitespace(sep)
    ensures Fields(w + [sep] + rest) == [w] + Fields(rest)
  {
    var s := w + [sep] + rest;
    WordLengthOfWord(w, sep, rest);
    assert s[0] == w[0];
    assert s[..|w|] == w;
    assert s[|w|..] == [sep] + rest;
    assert ([sep] + rest)[1..] == rest;
  }

  /** `str.split()` undoes `" ".join` on non-empty whitespace-free words. */
  lemma {:induction false} FieldsOfJoin(ws: seq<string>)
    requires forall i :: 0 <= i < |ws| ==> ws[i] != "" && NoWhitespace(ws[i])
    ensures Fields(JoinWords(ws)) == ws
  {
    if ws == [] {
    } else if |ws| == 1 {
      var w := ws[0];
      assert JoinWords(ws) == w;
      WordLengthAll(w);
      assert w[..|w|] == w;
      assert w[|w|..] == [];
    } else {
      JoinWordsCons(ws[0], ws[1..]);
      assert [ws[0]] + ws[1..] == ws;
      FieldsOfWord(ws[0], ' ', JoinWords(ws[1..]));
      assert ws[0] + " " + JoinWords(ws[1..]) == ws[0] + [' '] + JoinWords(ws[1..]);
      FieldsOfJoin(ws[1..]);
    }
  }

  lemma WordLengthAll(w: string)
    requires NoWhitespace(w)
    ensures WordLength(w) == |w|
  {
  }
}

=== FILE: version.dfy ===
/** The Python version pinned into a new conda environment
    (`CondaEnvRunner._get_python_env_version`): the regular expression
    `python(\d)(?:\.(\d+))?(?:\.?(\d))?` matched at the start of the first
    `base_python` entry, or else the host's dotted interpreter version. */
module PythonVersion {
  import opened Outcomes

  predicate IsDigit(c: char)
  {
    '0' <= c <= '9'
  }

  predicate AllDigits(s: string)
  {
    forall i :: 0 <= i < |s| ==> IsDigit(s[i])
  }

  /** Length of the greedy `\d+` / `\d*` run at the start of `s`. */
  function DigitRun(s: string): (n: nat)
    ensures n <= |s|
    ensures AllDigits(s[..n])
    ensures n < |s| ==> !IsDigit(s[n])
  {
    if s == [] || !IsDigit(s[0]) then 0
    else
      var n := 1 + DigitRun(s[1..]);
      assert s[..n] == [s[0]] + s[1..][..n - 1];
      n
  }

  /** The three capture groups of a successful match. */
  datatype VersionMatch = VersionMatch(major: char, minor: Option<string>, micro: Option<char>)

  /** `s` starts with `python` and a digit: exactly when `re.match` succeeds. */
  predicate HasPythonPrefix(s: string)
  {
    |s| >= 7 && s[..6] == "python" && IsDigit(s[6])
  }

  /** `(?:\.?(\d))?` at the start of `u`. */
  function MicroGroup(u: string): Option<char>
  {
    if |u| >= 2 && u[0] == '.' && IsDigit(u[1]) then Some(u[1])
    else if |u| >= 1 && IsDigit(u[0]) then Some(u[0])
    else None
  }

  /** Length of `(?:\.(\d+))?` at the start of `t`: a dot and the greedy digit run, or nothing. */
  function MinorLength(t: string): (n: nat)
    ensures n <= |t|
    ensures n > 0 ==> n >= 2 && t[0] == '.' && AllDigits(t[1..n])
  {
    if |t| >= 2 && t[0] == '.' && IsDigit(t[1]) then
      var run := DigitRun(t[1..]);
      assert t[1..][..run] == t[1..1 + run];
      1 + run
    else 0
  }

  /** The groups after `python<major>`, read from the rest `t` of the input. */
  function AfterMajor(major: char, t: string): VersionMatch
  {
    var n := MinorLength(t);
    VersionMatch(major, if n > 0 then Some(t[1..n]) else None, MicroGroup(t[n..]))
  }

  /** `re.match(r"python(\d)(?:\.(\d+))?(?:\.?(\d))?", s)`. The optional
      groups never force backtracking into an earlier group, so the greedy
      first choice of each group is the match. */
  function MatchVersion(s: string): (r: Option<VersionMatch>)
    ensures r.Some? <==> HasPythonPrefix(s)
    ensures r.Some? ==> r.value.major == s[6]
    ensures r.Some? && r.value.minor.Some? ==> r.value.minor.value != "" && AllDigits(r.value.minor.value)
    ensures r.Some? && r.value.micro.Some? ==> IsDigit(r.value.micro.value)
  {
    if !HasPythonPrefix(s) then None else Some(AfterMajor(s[6], s[7..]))
  }

  lemma MatchAfterPrefix(major: char, t: string)
    requires IsDigit(major)
    ensures MatchVersion("python" + [major] + t) == Some(AfterMajor(major, t))
  {
    PrefixParts(major, t);
  }

  /** The version string built from the groups, each later group after a dot. */
  function VersionText(m: VersionMatch): string
  {
    [m.major]
    + (if m.minor.Some? then "." + m.minor.value else "")
    + (if m.micro.Some? then "." + [m.micro.value] else "")
  }

  /** `_get_python_env_version`: the version read from `base_python[0]`, or
      the host's `version_dot` when it does not start with `python<digit>`. */
  function EnvVersion(basePython: seq<string>, versionDot: string): string
    requires |basePython| > 0
  {
    match MatchVersion(basePython[0])
    case Some(m) => VersionText(m)
    case None => versionDot
  }

  lemma DigitRunOfDigits(d: string, rest: string)
    requires AllDigits(d)
    requires rest == [] || !IsDigit(rest[0])
    ensures DigitRun(d + rest) == |d|
  {
    var s := d + rest;
    var n := DigitRun(s);
    assert forall i :: 0 <= i < |d| ==> s[i] == d[i];
    assert |d| < |s| ==> s[|d|] == rest[0];
  }

  lemma PrefixParts(major: char, tail: string)
    ensures ("python" + [major] + tail)[..6] == "python"
    ensures ("python" + [major] + tail)[6] == major
    ensures ("python" + [major] + tail)[7..] == tail
  {
  }

  /** `python<d>.<minor>.<u>...` yields `<d>.<minor>.<u>`, whatever follows. */
  lemma {:induction false} EnvVersionFull(major: char, minor: string, micro: char, rest: string, more: seq<string>, versionDot: string)
    requires IsDigit(major) && IsDigit(micro)
    requires minor != "" && AllDigits(minor)
    ensures EnvVersion(["python" + [major] + "." + minor + "." + [micro] + rest] + more, versionDot)
         == [major] + "." + minor + "." + [micro]
  {
    var u := "." + [micro] + rest;
    var t := "." + minor + u;
    var first := "python" + [major] + "." + minor + "." + [micro] + rest;
    assert first == "python" + [major] + t;
    assert ([first] + more)[0] == first;
    MatchAfterPrefix(major, t);
    AfterMajorMinor(major, minor, u);
    assert MicroGroup(u) == Some(micro);
  }

  /** After `python<d>`, a dot and a run of digits not followed by another
      digit form the minor group; the micro group is read from what follows. */
  lemma AfterMajorMinor(major: char, minor: string, u: string)
    requires minor != "" && AllDigits(minor)
    requires u == [] || !IsDigit(u[0])
    ensures AfterMajor(major, "." + minor + u) == VersionMatch(major, Some(minor), MicroGroup(u))
  {
    MinorOf(minor, u);
  }

  /** `python<d>.<minor>` not followed by a digit or `.<digit>` yields `<d>.<minor>`. */
  lemma {:induction false} EnvVersionMinor(major: char, minor: string, rest: string, more: seq<string>, versionDot: string)
    requires IsDigit(major)
    requires minor != "" && AllDigits(minor)
    requires rest == [] || !IsDigit(rest[0])
    requires !(|rest| >= 2 && rest[0] == '.' && IsDigit(rest[1]))
    ensures EnvVersion(["python" + [major] + "." + minor + rest] + more, versionDot) == [major] + "." + minor
  {
    var t := "." + minor + rest;
    var first := "python" + [major] + "." + minor + rest;
    assert first == "python" + [major] + t;
    assert ([first] + more)[0] == first;
    MatchAfterPrefix(major, t);
    AfterMajorMinor(major, minor, rest);
    assert MicroGroup(rest) == None;
  }

  /** The minor group of `.<digits><rest>` is the digits when `rest` does not start with one. */
  lemma MinorOf(minor: string, rest: string)
    requires minor != "" && AllDigits(minor)
    requires rest == [] || !IsDigit(rest[0])
    ensures MinorLength("." + minor + rest) == 1 + |minor|
    ensures ("." + minor + rest)[1..1 + |minor|] == minor
    ensures ("." + minor + rest)[1 + |minor|..] == rest
  {
    var t := "." + minor + rest;
    assert t[1..] == minor + rest;
    assert t[1] == minor[0];
    DigitRunOfDigits(minor, rest);
  }

  /** Two digits run together after `python` give major and micro, no minor:
      the `\.?` makes the dot before the last group optional. */
  lemma {:induction false} EnvVersionRunTogether(major: char, micro: char, rest: string, more: seq<string>, versionDot: string)
    requires IsDigit(major) && IsDigit(micro)
    ensures EnvVersion(["python" + [major, micro] + rest] + more, versionDot) == [major, '.', micro]
  {
    var t := [micro] + rest;
    assert "python" + [major, micro] + rest == "python" + [major] + t;
    MatchAfterPrefix(major, t);
    assert AfterMajor(major, t) == VersionMatch(major, None, Some(micro));
  }

  /** The concrete case: `python310` pins `3.1`, not `3.10`. */
  lemma Python310PinsThreeOne(versionDot: string)
    ensures EnvVersion(["python310"], versionDot) == "3.1"
  {
    EnvVersionRunTogether('3', '1', "0", [], versionDot);
    assert "python" + ['3', '1'] + "0" == "python310";
    assert ["python310"] + [] == ["python310"];
  }

  /** `python<d>` followed by neither a digit nor `.<digit>` yields `<d>`. */
  lemma {:induction false} EnvVersionMajor(major: char, rest: string, more: seq<string>, versionDot: string)
    requires IsDigit(major)
    requires rest == [] || !IsDigit(rest[0])
    requires !(|rest| >= 2 && rest[0] == '.' && IsDigit(rest[1]))
    ensures EnvVersion(["python" + [major] + rest] + more, versionDot) == [major]
  {
    MatchAfterPrefix(major, rest);
    assert AfterMajor(major, rest) == VersionMatch(major, None, None);
  }

  /** Anything not starting with `python<digit>` falls back to the host's version. */
  lemma EnvVersionFallback(basePython: seq<string>, versionDot: string)
    requires |basePython| > 0 && !HasPythonPrefix(basePython[0])
    ensures EnvVersion(basePython, versionDot) == versionDot
  {
  }
}
